=== FILE: README.md ===
# MineGuard AI client — a Dafny model of its page logic

MineGuard AI is a single-page React client. It lets a signed-in user upload compliance
documents, read their AI analysis, ask questions about one document and compare two
documents for compliance gaps. This project models the logic inside the client's pages and
components as pure functions over immutable state, and proves properties of that logic.

The logic covered:
- the records the server sends;
- the request gateway that attaches the bearer token, and the login call that stores it;
- the login form;
- the home page's list, file selection and sequential batch upload;
- the analysis panel's summary truncation and key-point paging;
- the chat dialog's send and history handling;
- the comparison card and the compliance-gap panel with its per-status tally;
- the PDF pane's page navigation and its object-URL lifecycle;
- the document page's fetch-and-render logic.

Conventions used throughout:
- Every network call becomes a parameter `Outcome<T>`: `Ok(value)` or `Err(failure)`. A
  failure is either "no response" or an HTTP status.
- A handler that issues a request returns `Step(state, request)`. `request` names the call
  it made, if any.
- A handler whose "pending" state is visible is split in two. `Begin…` runs up to the
  request and `Resolve…` runs once it settles. A one-step composition covers the common
  case.
- The credential store (the browser's local-storage entry `token`) is an `Option<string>`
  passed in and out explicitly.
- Toasts are returned as values. Navigation targets are returned as path strings.

Modules, one per source file or concern:
- `Outcomes`: Option, Failure, Outcome, Step, and JavaScript truthiness of strings.
- `Records`: Document, Analysis, Evaluation, Summary, Comparison; status wire tags.
- `Decimal`: base-10 rendering of counts, as a template literal prints them.
- `Gateway`: the request interceptor.
- `Auth`: the login call.
- `LoginPage`: the login form.
- `DocumentList`: the list reload and prepend shared by the pages.
- `Home`: the home page.
- `InsightView`: the analysis panel.
- `ChatModal`: the chat dialog.
- `ComparisonSection`: the comparison card.
- `ComparisonView`: the compliance-gap panel.
- `Viewer`: the PDF pane.
- `DocumentPage`: the document route.

The model follows the code as written, including these behaviours, which a reader might expect to be otherwise:
- The chat thread is not cleared when the document id changes. The history load replaces
  the thread only when it succeeds.
- Choosing a new comparison target keeps the comparison on display. A late result is shown
  under the new target, with no staleness guard (`ComparisonSection.LateResultShownUnderNewTarget`).
- The document page never resets `loading` or `document` when the id changes
  (`DocumentPage.LoadingNeverReturns`).
- A rejected login has no handler. The form stays loading and inert, and no error text is
  ever set (`LoginPage.RejectedLoginDisablesForm`).

## Model

| member | source | states |
|---|---|---|
| Records.ParseStatus | src/services/comparison.ts:3-8 | a wire status reads back to one of the three declared statuses exactly when it is one of their tags, and then its tag is the input |
| Records.ParseStatusTag | src/services/comparison.ts:5 | each declared status survives the trip to its wire tag and back |
| Decimal.NatToString | src/components/DocumentComparisonView.tsx:71-73 | a count renders as a non-empty digit string with no leading zero except "0" itself |
| Decimal.ParseNatToString | src/components/DocumentComparisonView.tsx:71-73 | reading the rendered count back gives the count (round trip) |
| Decimal.NatToStringInjective | src/components/DocumentComparisonView.tsx:71-73 | distinct counts never render as the same chip number |
| ComparisonView.StatusColor | src/components/DocumentComparisonView.tsx:16-27 | success, warning and error are given exactly to COMPLIANT, PARTIAL and NON_COMPLIANT; every other string gets the default colour |
| ComparisonView.Tally | src/components/DocumentComparisonView.tsx:30-38 | the reducer's left fold yields, per status, the number of evaluations carrying exactly that status, as the reference right-fold count defines it |
| ComparisonView.CountsPartition | src/components/DocumentComparisonView.tsx:30-38 | every evaluation is counted exactly once: under its declared status or as unknown |
| ComparisonView.CountUnknownZero | src/components/DocumentComparisonView.tsx:30-38 | no evaluation is left uncounted exactly when every status is one of the declared three |
| ComparisonView.TallyConserves | src/components/DocumentComparisonView.tsx:30-38 | the three counts never exceed the number of evaluations, and sum to it exactly when every status is declared |
| ComparisonView.SummaryChips | src/components/DocumentComparisonView.tsx:69-74 | three chips in order success/warning/error, whose texts are "Compliant: ", "Partial: ", "Non-compliant: " followed by the decimal count of that status |
| ComparisonView.SummaryChipsIgnoreServerSummary | src/components/DocumentComparisonView.tsx:30-38 | the chips do not depend on the summary the server sends, only on the evaluations |
| ComparisonView.ReplaceFirstAbsent | src/components/DocumentComparisonView.tsx:103 | replacing "_" in a string without one leaves it unchanged |
| ComparisonView.ReplaceFirstAt | src/components/DocumentComparisonView.tsx:103 | only the first occurrence is replaced; the text before and after it is kept |
| ComparisonView.StatusLabel | src/components/DocumentComparisonView.tsx:103 | a status label has as many characters as the status |
| ComparisonView.NonCompliantLabel | src/components/DocumentComparisonView.tsx:103 | the non-compliant chip reads "NON COMPLIANT" |
| ComparisonView.CompliantLabel | src/components/DocumentComparisonView.tsx:103 | the compliant chip reads "COMPLIANT" |
| ComparisonView.PartialLabel | src/components/DocumentComparisonView.tsx:103 | the partial chip reads "PARTIAL" |
| ComparisonView.RenderEvaluation | src/components/DocumentComparisonView.tsx:80-111 | a card shows the requirement, rationale, the status's colour and label, and an evidence block exactly when there is evidence |
| ComparisonView.RenderEvaluations | src/components/DocumentComparisonView.tsx:79-80 | one card per evaluation, in arrival order |
| ComparisonView.Render | src/components/DocumentComparisonView.tsx:69-80 | the panel shows the recomputed chips, then one card per evaluation, each the card of the evaluation at its position |
| ComparisonView.ChipsOfCounts | src/components/DocumentComparisonView.tsx:71-73 | each chip's text is its caption followed by the decimal count of its status among the evaluations |
| ComparisonView.FourEvaluationChips | src/components/DocumentComparisonView.tsx:30-38 | two compliant, one partial and one non-compliant evaluation give "Compliant: 2", "Partial: 1", "Non-compliant: 1" |
| DocumentList.Reload | src/pages/Home.tsx:34-42 | a successful listing replaces the list in server order; a failed one leaves it unchanged |
| DocumentList.Prepend | src/pages/Home.tsx:60 | the new document comes first and the old list follows unchanged |
| Home.Init | src/pages/Home.tsx:26-29 | the page starts with no documents, a closed dialog, no selection and no upload running |
| Home.FilesLoaded | src/pages/Home.tsx:34-46 | the mount-time listing reloads only the document list |
| Home.SelectFiles | src/pages/Home.tsx:48-51 | with no file list the previous selection is kept; any file list, even an empty one, replaces it |
| Home.Successes | src/pages/Home.tsx:59-62 | the documents added are exactly the leading run of successful uploads, and the batch stops at the first failure |
| Home.ConfirmUpload | src/pages/Home.tsx:53-77 | an empty selection does nothing; otherwise the successes are prepended newest first above the old list, so the new list holds exactly the old documents plus the uploaded ones, and uploading ends; a full success clears the selection, closes the dialog and toasts success; a failure keeps both, and a 401 sends the user to /login while any other failure only toasts; the number of requests is the successes plus the failed one |
| Home.ReverseAt | src/pages/Home.tsx:59-61 | position i of the prepended batch holds the document uploaded i-th from last |
| Home.ReversePermutes | src/pages/Home.tsx:59-61 | prepending the batch one by one only reorders it: every uploaded document appears as often as it was uploaded |
| Home.SingleUploadPrepends | src/pages/Home.tsx:59-62 | one successful upload puts its document at the head of the list once |
| Home.ViewPage | src/pages/Home.tsx:79-82 | an empty id navigates nowhere; any other id goes to /documents/ followed by the id |
| InsightView.KeyPoints | src/pages/DocumentInsightView.tsx:27 | the key points are the analysis's, or none without an analysis |
| InsightView.TotalPages | src/pages/DocumentInsightView.tsx:28 | the page count is the ceiling of the key-point count over five, and zero only for no key points |
| InsightView.Slice | src/pages/DocumentInsightView.tsx:29-32 | slicing clamps both bounds to the length and gives nothing when the start is not before the end |
| InsightView.PageOf | src/pages/DocumentInsightView.tsx:29-32 | a page holds at most five key points, the run starting at five times the page, and nothing past the last page |
| InsightView.ConcatIsPrefix | src/pages/DocumentInsightView.tsx:29-32 | the first k pages laid end to end are the first 5k key points |
| InsightView.PagesPartitionKeyPoints | src/pages/DocumentInsightView.tsx:28-32 | all pages laid end to end are exactly the key points: none lost, none repeated |
| InsightView.InsightNumberIsPosition | src/pages/DocumentInsightView.tsx:138 | "Insight n" labels the n-th key point of the whole list |
| InsightView.Number | src/pages/DocumentInsightView.tsx:120-138 | each shown item carries its insight number, its 1-based position in the whole list, and its text |
| InsightView.KeyPointsView | src/pages/DocumentInsightView.tsx:117-167 | the empty text shows exactly when the page is past the last one; otherwise exactly the key points of that page, as many as the page holds, each numbered by its position in the whole list, with the pager on the 1-based current page |
| InsightView.EveryKeyPointShown | src/pages/DocumentInsightView.tsx:117-138 | every key point is displayed: the one at position j appears on page j/5 as item j%5, captioned with j+1 |
| InsightView.SummaryOf | src/pages/DocumentInsightView.tsx:33 | the summary is the analysis's summary, or empty without an analysis |
| InsightView.SummaryShown | src/pages/DocumentInsightView.tsx:33-40 | a document without an analysis, or with an empty summary, shows the placeholder; otherwise its summary, cut to 200 characters and the ellipsis while long and collapsed |
| InsightView.DisplayText | src/pages/DocumentInsightView.tsx:37-40 | collapsed, a summary over 200 characters shows its first 200 followed by the ellipsis; otherwise it shows whole, and an empty one shows the placeholder |
| InsightView.ReadMoreControl | src/pages/DocumentInsightView.tsx:90-100 | the toggle exists exactly for a long summary, and reads "Read less" exactly when expanded |
| InsightView.Init | src/pages/DocumentInsightView.tsx:22-25 | the panel starts on the first page, collapsed, with no documents |
| InsightView.SelectPage | src/pages/DocumentInsightView.tsx:157 | the 1-based page the pager reports is stored 0-based, touching nothing else |
| InsightView.SelectOfferedPage | src/pages/DocumentInsightView.tsx:154-157 | any page the pager offers shows key points, with that page current |
| InsightView.ToggleExpanded | src/pages/DocumentInsightView.tsx:94 | the toggle flips only the expanded flag |
| InsightView.ToggleTwiceRestores | src/pages/DocumentInsightView.tsx:94 | toggling twice restores the panel |
| InsightView.FilesLoaded | src/pages/DocumentInsightView.tsx:43-55 | the mount-time listing reloads only the document list |
| ChatModal.TrimStart | src/components/DocumentChatModal.tsx:58 | leading trim keeps a suffix, drops only whitespace, and leaves no leading whitespace |
| ChatModal.TrimEnd | src/components/DocumentChatModal.tsx:58 | trailing trim keeps a prefix, drops only whitespace, and leaves no trailing whitespace |
| ChatModal.TrimEmptyIffBlank | src/components/DocumentChatModal.tsx:58 | a question trims to nothing exactly when it is all whitespace |
| ChatModal.Init | src/components/DocumentChatModal.tsx:32-34 | the dialog starts with an empty question, an empty thread and nothing pending |
| ChatModal.SetQuestion | src/components/DocumentChatModal.tsx:220 | typing sets only the question |
| ChatModal.Prompts | src/components/DocumentChatModal.tsx:91-130 | while the thread is empty all three fixed prompts are offered, in order; afterwards none |
| ChatModal.PromptCanBeSent | src/components/DocumentChatModal.tsx:127 | a clicked suggestion can be sent exactly when no ask is pending |
| ChatModal.BeginSend | src/components/DocumentChatModal.tsx:57-61 | a blank or pending question changes and asks nothing; otherwise the dialog goes loading and the question is sent as typed |
| ChatModal.ResolveSend | src/components/DocumentChatModal.tsx:63-78 | exactly one turn is appended for the captured question, keeping earlier turns; a success answers it and clears the input; a failure gives the apology and keeps the input; loading ends |
| ChatModal.Send | src/components/DocumentChatModal.tsx:57-79 | the whole send: nothing when blocked, otherwise one request and one appended turn, with the input cleared only on success |
| ChatModal.NoSendWhilePending | src/components/DocumentChatModal.tsx:58 | while an ask is pending a second send asks nothing and the button is disabled |
| ChatModal.LoadHistory | src/components/DocumentChatModal.tsx:42-55 | no document id loads nothing; a loaded history replaces the thread; a failed load keeps it |
| ChatModal.RunKeepsThreadPrefix | src/components/DocumentChatModal.tsx:66-75 | the thread is append-only: after any typing and asking, the earlier turns are unchanged and in order |
| ComparisonSection.Candidates | src/components/DocumentComparisonSection.tsx:80-81 | a document is offered exactly when it is in the list and is not the source |
| ComparisonSection.CandidatesAppend | src/components/DocumentComparisonSection.tsx:80-81 | filtering keeps list order: the candidates of a concatenation are those of each part in turn |
| ComparisonSection.PickerShownIff | src/components/DocumentComparisonSection.tsx:66 | the picker shows exactly when some document other than the source exists |
| ComparisonSection.Init | src/components/DocumentComparisonSection.tsx:30-32 | the card starts with no target, no comparison and nothing pending |
| ComparisonSection.SelectTarget | src/components/DocumentComparisonSection.tsx:78 | choosing a target records it and keeps the comparison on display |
| ComparisonSection.BeginCompare | src/components/DocumentComparisonSection.tsx:34-36 | with no target nothing is asked; otherwise the card goes loading and asks for source against target |
| ComparisonSection.ResolveCompare | src/components/DocumentComparisonSection.tsx:37-48 | a result replaces the comparison with no toast; a failure keeps the old one and raises the error toast; loading ends either way |
| ComparisonSection.ClickCompare | src/components/DocumentComparisonSection.tsx:34-49 | a disabled button does nothing; an enabled one keeps the target, makes one request and ends not loading with the result or the old comparison, raising the error toast exactly on failure |
| ComparisonSection.OneCompareInFlight | src/components/DocumentComparisonSection.tsx:93 | once a comparison is pending the button is disabled and a click asks nothing |
| ComparisonSection.LateResultShownUnderNewTarget | src/components/DocumentComparisonSection.tsx:34-48 | a result arriving after the target changed is still shown, under the new target |
| Viewer.Init | src/components/DocumentViewer.tsx:15-17 | the pane starts at page 1 of 0 with no URL |
| Viewer.LoadSuccess | src/components/DocumentViewer.tsx:43-46 | a decoded PDF sets the page count and returns to page 1, in range |
| Viewer.Previous | src/components/DocumentViewer.tsx:67-70 | Previous steps back one page only above page 1, and keeps the page in range |
| Viewer.Next | src/components/DocumentViewer.tsx:79-82 | Next steps forward one page only below the page count, and keeps the page in range |
| Viewer.NoWrapAround | src/components/DocumentViewer.tsx:67-82 | Previous on the first page and Next on the last change nothing |
| Viewer.Render | src/components/DocumentViewer.tsx:48-55 | the loading text shows exactly while there is no URL; otherwise the URL's current page |
| Viewer.NavigateKeepsPageInRange | src/components/DocumentViewer.tsx:43-82 | any sequence of clicks and loads keeps the page between 1 and the page count |
| Viewer.StartRun | src/components/DocumentViewer.tsx:19-20 | an effect run starts with no URL, unsettled, not cleaned up, nothing revoked |
| Viewer.CleanupRun | src/components/DocumentViewer.tsx:38-40 | the cleanup revokes the run's URL if one exists, and nothing otherwise |
| Viewer.RunStepAsWritten | src/components/DocumentViewer.tsx:19-41 | as written, a successful download creates and shows its URL even after cleanup; a failed one creates and shows nothing and only settles the run |
| Viewer.AsWrittenRevokesOnlyItsOwnUrl | src/components/DocumentViewer.tsx:19-41 | as written, a run creates at most one URL and its cleanup revokes nothing but that URL |
| Viewer.AsWrittenLeaksLateUrl | src/components/DocumentViewer.tsx:32-40 | as written, cleanup followed by a successful download leaves a created, shown URL that is never revoked |
| Viewer.RunStep | src/components/DocumentViewer.tsx:19-41 | with the cleanup honoured, a download settling after cleanup creates and shows nothing; a failed one creates and shows nothing and only settles the run |
| Viewer.RunAllReleases | src/components/DocumentViewer.tsx:19-41 | with the cleanup honoured, every event order keeps the rule: revoked exactly the run's own URL once cleaned up, nothing before |
| Viewer.Download | src/components/DocumentViewer.tsx:32-33 | as written, a run's first successful download creates a URL and shows it in the pane whether or not the run was cleaned up, and a run cleaned up before then is left breaking the release rule; a failure creates no URL, only settles the run and leaves the pane unchanged; the page is untouched |
| Viewer.DownloadHonouringCleanup | src/components/DocumentViewer.tsx:19-41 | with the cleanup honoured, a cleaned-up run or a failed download leaves the pane alone, a failure only settles the run, a live run's first success shows its URL, and the release rule is kept |
| DocumentPage.Init | src/pages/DocumentView.tsx:14-15 | the page starts loading with no document |
| DocumentPage.FetchDocument | src/pages/DocumentView.tsx:18-31 | a missing or empty id changes and asks nothing; otherwise that id is fetched, loading ends, and a fetched document replaces the shown one while a failure keeps it |
| DocumentPage.Render | src/pages/DocumentView.tsx:33-34 | loading text exactly while loading, not-found text exactly when done with no document, content otherwise |
| DocumentPage.MissingIdStaysLoading | src/pages/DocumentView.tsx:20 | with no id in the route the page shows the loading text for good |
| DocumentPage.LoadingNeverReturns | src/pages/DocumentView.tsx:18-31 | once settled, no later id change shows the loading text again, and failed fetches keep the previous document |
| Gateway.Annotate | src/api.tsx:13-19 | with a non-empty token and a header map, Authorization becomes "Bearer " followed by the token and every other header and field is kept; otherwise the request is unchanged |
| Gateway.AnnotateIdempotent | src/api.tsx:15-16 | annotating twice is the same as once |
| Auth.StoreToken | src/services/auth.ts:15 | a non-empty token is stored; a missing or empty one leaves the store as it was |
| Auth.Login | src/services/auth.ts:13-17 | the call resolves to the response unchanged; a rejection leaves the store unchanged |
| Auth.LoginThenAnnotate | src/services/auth.ts:15 | after a login returning token t, the next request carries "Bearer t" |
| LoginPage.Init | src/pages/Login.tsx:15-18 | the form starts empty, without error, not loading |
| LoginPage.BeginSubmit | src/pages/Login.tsx:22-32 | the error is cleared; an empty field stops with no request and loading unchanged; otherwise the form goes loading and sends both fields |
| LoginPage.Submit | src/pages/Login.tsx:22-38 | the fields are kept and the error cleared; an empty field toasts and asks nothing; a resolved login stores the token, ends loading, toasts success and goes to "/"; a rejected one stays loading with no navigation and the store unchanged |
| LoginPage.RejectedLoginDisablesForm | src/pages/Login.tsx:32-33 | after a rejected login the form is loading, so the submit button stays inert |
| LoginPage.ResolvedLoginEnablesForm | src/pages/Login.tsx:33-35 | after a resolved login the submit button is usable again |

## Left out

- Rendering: the JSX layout, styling and MUI components are left out. The model keeps only
  what decides visible content: chip texts and colours, cards, loading and empty texts, and
  button enablement.
- Toasts are values (`Toast`) rather than calls into the toast library. Their message
  strings are not modelled.
- Asynchrony: each handler runs to completion, or in two phases where its pending state is
  visible. Interleavings across handlers are modelled only for the PDF effect
  (`Viewer.RunStepAsWritten`, with `Viewer.RunStep` as its corrected form) and for the late
  comparison result.
- The compliance score bar and percentage are left out (`DocumentComparisonView.tsx:61,65`).
  They are floating-point display only; the score is kept as a `real` and never computed on.
- The file-size display of the upload dialog and the list item is left out. It is
  floating-point formatting.
- The ellipsis constant is kept as the three characters the source spells. The source
  writes a mis-decoded "…", and only its being a fixed suffix matters.
- Characters are Unicode scalar values. JavaScript's `length`, `slice` and `trim` count
  UTF-16 code units, so summaries with characters outside the Basic Multilingual Plane would
  be cut at a different place.
- The service wrappers (`documents.ts`, `comparison.ts`, `qa.ts`) are folded into the
  `Outcome` parameters. Only their request shapes are kept: `ChatModal.AskRequest`,
  `ComparisonSection.CompareRequest` and `Auth.LoginPayload`.
- PDF decoding by react-pdf is a parameter: `Viewer.LoadSuccess` receives the page count.
- The PDF pane does not reset its page, page count or URL when the document changes. The
  model keeps that: `Viewer.Download` changes only the URL, and does so even for a run
  already cleaned up.
- The upload dialog's open and close buttons are not modelled, and neither is `uploading`
  being true while a batch runs. `Home.ConfirmUpload` reports only the state after the
  batch.
- The navigation bar, routing, theme and `App.tsx` are not part of this model.
- LoginPage.Submit models `handleSubmit` only. The email field has `type="email"` and the
  form does not set `noValidate` (`src/pages/Login.tsx:64-67`), so the browser's constraint
  validation blocks a malformed address such as "foo" before the submit event fires. Then
  no toast is raised, no request is made and nothing is set loading. That browser check is
  not modelled, so for such an address the model sends the request.
- ComparisonView.TallyConserves: the three counts sum to the number of evaluations only when
  every status is one of the three declared values. The status type is a compile-time union
  that nothing checks at run time, so the model keeps the wire string and proves the sum
  exactly under that condition, and "at most" otherwise.
- InsightView.SelectPage requires a page of at least 1, because the pager only reports
  pages 1 to the page count.
- ComparisonView.StatusLabel states only that the length is kept. What it does to each
  declared status is stated by `ComparisonView.NonCompliantLabel`,
  `ComparisonView.CompliantLabel` and `ComparisonView.PartialLabel`, and in general by
  `ComparisonView.ReplaceFirstAt` and `ComparisonView.ReplaceFirstAbsent`.

## Findings

| source | as written | input that shows it | evidently intended | confidence | as-written member | corrected member |
|---|---|---|---|---|---|---|
| src/components/DocumentViewer.tsx:19-41 | the download is not cancelled by the cleanup; when it resolves after the cleanup, it still creates an object URL that nothing revokes, and asks the pane to show it (the pane shows it while mounted, e.g. after an id change; once unmounted the state update is dropped) | the document id changes (or the pane unmounts) while the download is in flight: events `Cleanup` then `Settle(Ok(u))` | a download that settles after the cleanup creates and shows nothing, so every created URL is revoked by its run's cleanup | not executed | Viewer.AsWrittenLeaksLateUrl | Viewer.RunAllReleases |

=== FILE: auth.dfy ===
/**
 The login call (services/auth.ts): it posts the credentials and, when the response
 carries a token, writes it to the credential store read by the request gateway.
 */
module Auth {
  import opened Outcomes
  import Gateway

  datatype LoginPayload = LoginPayload(email: string, password: string)

  /** The login response: the token (absent or empty when the server sends none) and the
      user. */
  datatype LoginResponse = LoginResponse(token: Option<string>, user: string)

  /** `if (response.data.token) localStorage.setItem("token", ...)`: a non-empty token is
      stored; a missing or empty one leaves the store as it was. */
  function StoreToken(store: Option<string>, data: LoginResponse): (r: Option<string>)
    ensures TruthyOpt(data.token) ==> r == data.token
    ensures !TruthyOpt(data.token) ==> r == store
  {
    if TruthyOpt(data.token) then data.token else store
  }

  /** `login`, given the outcome of the POST: the new store and what the call resolves to.
      A rejected POST rejects the call and leaves the store alone; a successful one returns
      the response data unchanged. */
  function Login(store: Option<string>, response: Outcome<LoginResponse>): (r: (Option<string>, Outcome<LoginResponse>))
    ensures r.1 == response
    ensures response.Err? ==> r.0 == store
    ensures response.Ok? ==> r.0 == StoreToken(store, response.value)
  {
    match response
    case Ok(data) => (StoreToken(store, data), response)
    case Err(_) => (store, response)
  }

  /** After a login that returns token `t`, the next request that has a header map carries
      `Authorization: Bearer t`. */
  lemma LoginThenAnnotate(store: Option<string>, t: string, user: string, cfg: Gateway.RequestConfig)
    requires t != "" && cfg.headers.Some?
    ensures var stored := Login(store, Ok(LoginResponse(Some(t), user))).0;
      var sent := Gateway.Annotate(stored, cfg);
      sent.headers.Some? && Gateway.AUTHORIZATION in sent.headers.value
      && sent.headers.value[Gateway.AUTHORIZATION] == Gateway.BEARER + t
  {
  }
}

=== FILE: chat_modal.dfy ===
/**
 The question-and-answer dialog of a document (components/DocumentChatModal.tsx): the
 thread of question/answer turns, the history load when the dialog gets a document id,
 and the guarded send that appends either the answer or a fixed apology.
 */
module ChatModal {
  import opened Outcomes

  /** The characters `String.prototype.trim` removes: the ECMAScript WhiteSpace and
      LineTerminator characters. */
  predicate IsWhitespace(c: char) {
    || c == '\t' || c == '\n' || c == '\U{000B}' || c == '\U{000C}' || c == '\r' || c == ' '
    || c == '\U{00A0}' || c == '\U{1680}' || ('\U{2000}' <= c <= '\U{200A}')
    || c == '\U{2028}' || c == '\U{2029}' || c == '\U{202F}' || c == '\U{205F}'
    || c == '\U{3000}' || c == '\U{FEFF}'
  }

  predicate IsBlank(s: string) {
    forall i :: 0 <= i < |s| ==> IsWhitespace(s[i])
  }

  /** Drops the leading whitespace: the result is the suffix of `s` that starts at its first
      non-whitespace character. */
  function TrimStart(s: string): (r: string)
    ensures |r| <= |s| && r == s[|s| - |r|..]
    ensures IsBlank(s[..|s| - |r|])
    ensures |r| > 0 ==> !IsWhitespace(r[0])
    decreases |s|
  {
    if |s| > 0 && IsWhitespace(s[0]) then TrimStart(s[1..]) else s
  }

  /** Drops the trailing whitespace: the result is the prefix of `s` that ends at its last
      non-whitespace character. */
  function TrimEnd(s: string): (r: string)
    ensures |r| <= |s| && r == s[..|r|]
    ensures IsBlank(s[|r|..])
    ensures |r| > 0 ==> !IsWhitespace(r[|r| - 1])
    decreases |s|
  {
    if |s| > 0 && IsWhitespace(s[|s| - 1]) then TrimEnd(s[..|s| - 1]) else s
  }

  function Trim(s: string): string {
    TrimEnd(TrimStart(s))
  }

  /** `!question.trim()` holds exactly for the empty and the whitespace-only questions. */
  lemma TrimEmptyIffBlank(s: string)
    ensures Trim(s) == "" <==> IsBlank(s)
  {
    var t := TrimStart(s);
    var k := |s| - |t|;
    if Trim(s) == "" {
      assert t[0..] == t;
      assert |t| == 0;
      assert s[..|s|] == s;
    } else if |t| > 0 {
      assert !IsWhitespace(s[k]);
    }
  }

  /** One turn of the thread. */
  datatype ChatTurn = ChatTurn(question: string, answer: string)

  /** The dialog's state: the input box, the thread, and whether a question is pending. */
  datatype ChatState = ChatState(question: string, thread: seq<ChatTurn>, loading: bool)

  /** The request of an ask: the document and the question as typed. */
  datatype AskRequest = AskRequest(documentId: string, question: string)

  const FALLBACK_ANSWER: string := "Sorry, I couldn't answer that."

  const SUGGESTED_PROMPTS: seq<string> :=
    ["What are the compliance risks?", "Summarize key obligations", "Are penalties mentioned?"]

  function Init(): (s: ChatState)
    ensures s.question == "" && s.thread == [] && !s.loading
  {
    ChatState("", [], false)
  }

  /** Typing in the input box, or clicking a suggested prompt, sets the question. */
  function SetQuestion(s: ChatState, text: string): (r: ChatState)
    ensures r.question == text && r.thread == s.thread && r.loading == s.loading
  {
    s.(question := text)
  }

  /** The suggested prompts under the info banner, which is shown only while the thread is
      empty. */
  function Prompts(s: ChatState): (r: seq<string>)
    ensures |r| > 0 <==> |s.thread| == 0
    ensures |s.thread| == 0 ==> r == SUGGESTED_PROMPTS
    ensures forall i :: 0 <= i < |r| ==> r[i] in SUGGESTED_PROMPTS && |r[i]| > 0 && !IsWhitespace(r[i][0])
  {
    if |s.thread| == 0 then SUGGESTED_PROMPTS else []
  }

  /** The Ask button is disabled exactly while a question is pending. */
  predicate AskEnabled(s: ChatState) {
    !s.loading
  }

  /** The guard at the top of `handleSend`. */
  predicate CanSend(s: ChatState) {
    Trim(s.question) != "" && !s.loading
  }

  /** The first half of `handleSend`, up to the request: a blank question or a pending one
      changes nothing and asks nothing; otherwise the dialog is marked loading and the
      question is sent exactly as typed. */
  function BeginSend(s: ChatState, documentId: string): (r: Step<ChatState, AskRequest>)
    ensures !CanSend(s) <==> r.request.None?
    ensures r.request.None? ==> r.state == s
    ensures r.request.Some? ==>
      && r.request.value == AskRequest(documentId, s.question)
      && r.state.loading
      && r.state.thread == s.thread && r.state.question == s.question
  {
    if !CanSend(s) then Step(s, None)
    else Step(s.(loading := true), Some(AskRequest(documentId, s.question)))
  }

  /** The second half of `handleSend`, once the request settles: the turn for the captured
      question is appended with the answer, or with the apology if the request failed; only
      a success clears the input; either way the dialog stops loading. */
  function ResolveSend(s: ChatState, asked: string, answer: Outcome<string>): (r: ChatState)
    ensures !r.loading
    ensures |r.thread| == |s.thread| + 1 && r.thread[..|s.thread|] == s.thread
    ensures r.thread[|s.thread|].question == asked
    ensures answer.Ok? ==> r.thread[|s.thread|].answer == answer.value && r.question == ""
    ensures answer.Err? ==> r.thread[|s.thread|].answer == FALLBACK_ANSWER && r.question == s.question
  {
    match answer
    case Ok(text) => ChatState("", s.thread + [ChatTurn(asked, text)], false)
    case Err(_) => ChatState(s.question, s.thread + [ChatTurn(asked, FALLBACK_ANSWER)], false)
  }

  /** `handleSend` as one step, given the outcome the ask request would have. */
  function Send(s: ChatState, documentId: string, answer: Outcome<string>): (r: Step<ChatState, AskRequest>)
    ensures !CanSend(s) ==> r == Step(s, None)
    ensures CanSend(s) ==>
      && r.request == Some(AskRequest(documentId, s.question))
      && !r.state.loading
      && r.state.thread == s.thread + [ChatTurn(s.question, if answer.Ok? then answer.value else FALLBACK_ANSWER)]
      && r.state.question == (if answer.Ok? then "" else s.question)
  {
    var begun := BeginSend(s, documentId);
    if begun.request.None? then begun
    else Step(ResolveSend(begun.state, s.question, answer), begun.request)
  }

  /** A clicked suggestion is never blank, so it can be sent as soon as no ask is pending. */
  lemma PromptCanBeSent(s: ChatState, i: nat)
    requires i < |Prompts(s)|
    ensures CanSend(SetQuestion(s, Prompts(s)[i])) <==> !s.loading
  {
    TrimEmptyIffBlank(Prompts(s)[i]);
  }

  /** While an ask is pending, a second send is ignored: at most one ask is in flight. */
  lemma NoSendWhilePending(s: ChatState, documentId: string, other: string)
    requires BeginSend(s, documentId).request.Some?
    ensures BeginSend(BeginSend(s, documentId).state, other).request.None?
    ensures !AskEnabled(BeginSend(s, documentId).state)
  {
  }

  /** The history effect: an empty document id loads nothing; a loaded history replaces the
      thread wholesale; a failed load leaves the thread as it was. */
  function LoadHistory(s: ChatState, documentId: string, history: Outcome<seq<ChatTurn>>): (r: Step<ChatState, string>)
    ensures documentId == "" ==> r == Step(s, None)
    ensures documentId != "" ==> r.request == Some(documentId)
    ensures documentId != "" && history.Ok? ==> r.state == s.(thread := history.value)
    ensures history.Err? ==> r.state == s
  {
    if documentId == "" then Step(s, None)
    else match history
      case Ok(turns) => Step(s.(thread := turns), Some(documentId))
      case Err(_) => Step(s, Some(documentId))
  }

  /** What the user can do in an open dialog once its history has loaded. */
  datatype ChatEvent = Typed(text: string) | Asked(answer: Outcome<string>)

  function Run(s: ChatState, documentId: string, events: seq<ChatEvent>): ChatState
    decreases |events|
  {
    if |events| == 0 then s
    else
      var next := match events[0]
        case Typed(text) => SetQuestion(s, text)
        case Asked(answer) => Send(s, documentId, answer).state;
      Run(next, documentId, events[1..])
  }

  /** The thread is append-only: after any run of typing and asking, the earlier turns are
      still there, unchanged and in order. */
  lemma {:induction false} RunKeepsThreadPrefix(s: ChatState, documentId: string, events: seq<ChatEvent>)
    ensures |s.thread| <= |Run(s, documentId, events).thread|
    ensures Run(s, documentId, events).thread[..|s.thread|] == s.thread
    decreases |events|
  {
    if |events| > 0 {
      var next := match events[0]
        case Typed(text) => SetQuestion(s, text)
        case Asked(answer) => Send(s, documentId, answer).state;
      assert |s.thread| <= |next.thread| && next.thread[..|s.thread|] == s.thread;
      RunKeepsThreadPrefix(next, documentId, events[1..]);
      var final := Run(next, documentId, events[1..]);
      assert final.thread[..|s.thread|] == final.thread[..|next.thread|][..|s.thread|];
    }
  }
}

=== FILE: comparison_section.dfy ===
/**
 The comparison card of a document (components/DocumentComparisonSection.tsx): the choice
 of a target among the other documents, the Compare action, and the comparison it shows.
 */
module ComparisonSection {
  import opened Outcomes
  import opened Records

  /** The documents offered as targets: every document whose id differs from the source's,
      in the order of the list. */
  function Candidates(all: seq<Document>, sourceId: string): (r: seq<Document>)
    ensures |r| <= |all|
    ensures forall d :: d in r <==> d in all && d.id != sourceId
    decreases |all|
  {
    if |all| == 0 then []
    else (if all[0].id != sourceId then [all[0]] else []) + Candidates(all[1..], sourceId)
  }

  /** Filtering keeps the order: the candidates of a concatenation are the candidates of each
      part, in turn. */
  lemma {:induction false} CandidatesAppend(a: seq<Document>, b: seq<Document>, sourceId: string)
    ensures Candidates(a + b, sourceId) == Candidates(a, sourceId) + Candidates(b, sourceId)
    decreases |a|
  {
    if |a| == 0 {
      assert a + b == b;
    } else {
      assert (a + b)[0] == a[0];
      assert (a + b)[1..] == a[1..] + b;
      CandidatesAppend(a[1..], b, sourceId);
    }
  }

  /** The picker is shown exactly when some document other than the source exists. */
  predicate PickerShown(all: seq<Document>, sourceId: string) {
    |Candidates(all, sourceId)| > 0
  }

  lemma PickerShownIff(all: seq<Document>, sourceId: string)
    ensures PickerShown(all, sourceId) <==> exists i :: 0 <= i < |all| && all[i].id != sourceId
  {
    if PickerShown(all, sourceId) {
      var d := Candidates(all, sourceId)[0];
      assert d in all;
    }
  }

  /** The card's state: the chosen target id ("" for none), the comparison on display, and
      whether a comparison request is pending. */
  datatype SectionState = SectionState(target: string, comparison: Option<Comparison>, loading: bool)

  /** The request of a comparison: source first, target second. */
  datatype CompareRequest = CompareRequest(sourceDocumentId: string, targetDocumentId: string)

  function Init(): (s: SectionState)
    ensures s.target == "" && s.comparison.None? && !s.loading
  {
    SectionState("", None, false)
  }

  /** Choosing a target only records it; the comparison on display stays. */
  function SelectTarget(s: SectionState, id: string): (r: SectionState)
    ensures r.target == id && r.comparison == s.comparison && r.loading == s.loading
  {
    s.(target := id)
  }

  /** The Compare button is enabled when a target is chosen and no comparison is pending. */
  predicate CompareEnabled(s: SectionState) {
    s.target != "" && !s.loading
  }

  /** The first half of `handleCompare`: with no target it does nothing and asks nothing;
      otherwise it marks the card loading and requests the comparison of the source with the
      chosen target. Its own guard does not look at `loading`. */
  function BeginCompare(s: SectionState, sourceId: string): (r: Step<SectionState, CompareRequest>)
    ensures s.target == "" <==> r.request.None?
    ensures r.request.None? ==> r.state == s
    ensures r.request.Some? ==>
      && r.request.value == CompareRequest(sourceId, s.target)
      && r.state == s.(loading := true)
  {
    if s.target == "" then Step(s, None)
    else Step(s.(loading := true), Some(CompareRequest(sourceId, s.target)))
  }

  /** The notification the card raises: the error toast of a failed comparison. */
  datatype Toast = CompareFailed

  /** The card after a comparison request settles, and the toast raised, if any. */
  datatype Settled = Settled(state: SectionState, toast: Option<Toast>)

  /** The second half of `handleCompare`: a result replaces the comparison on display; a
      failure keeps the previous one and raises the error toast; either way loading ends. */
  function ResolveCompare(s: SectionState, result: Outcome<Comparison>): (r: Settled)
    ensures !r.state.loading && r.state.target == s.target
    ensures result.Ok? ==> r.state.comparison == Some(result.value) && r.toast.None?
    ensures result.Err? ==> r.state.comparison == s.comparison && r.toast == Some(CompareFailed)
  {
    match result
    case Ok(c) => Settled(s.(comparison := Some(c), loading := false), None)
    case Err(_) => Settled(s.(loading := false), Some(CompareFailed))
  }

  /** What one click on the Compare button leaves behind: the card, the request made (if
      any) and the toast raised (if any). */
  datatype Clicked = Clicked(state: SectionState, request: Option<CompareRequest>, toast: Option<Toast>)

  /** A click on the Compare button: a disabled button does nothing; an enabled one runs
      `handleCompare` to completion with the given outcome. */
  function ClickCompare(s: SectionState, sourceId: string, result: Outcome<Comparison>): (r: Clicked)
    ensures !CompareEnabled(s) ==> r == Clicked(s, None, None)
    ensures CompareEnabled(s) ==>
      && r.request == Some(CompareRequest(sourceId, s.target))
      && !r.state.loading && r.state.target == s.target
      && r.state.comparison == (if result.Ok? then Some(result.value) else s.comparison)
      && (r.toast == Some(CompareFailed) <==> result.Err?)
  {
    if !CompareEnabled(s) then Clicked(s, None, None)
    else
      var begun := BeginCompare(s, sourceId);
      var settled := ResolveCompare(begun.state, result);
      Clicked(settled.state, begun.request, settled.toast)
  }

  /** Once a comparison is pending the button is disabled, so a second click issues nothing:
      at most one comparison is in flight per card. */
  lemma OneCompareInFlight(s: SectionState, sourceId: string, result: Outcome<Comparison>)
    requires CompareEnabled(s)
    ensures !CompareEnabled(BeginCompare(s, sourceId).state)
    ensures ClickCompare(BeginCompare(s, sourceId).state, sourceId, result).request.None?
  {
  }

  /** Nothing ties a result to the target that asked for it: if the target changes while a
      comparison is pending, the late result is still displayed under the new target. */
  lemma LateResultShownUnderNewTarget(s: SectionState, sourceId: string, newTarget: string, c: Comparison)
    requires CompareEnabled(s) && newTarget != s.target
    ensures var pending := BeginCompare(s, sourceId).state;
      var r := ResolveCompare(SelectTarget(pending, newTarget), Ok(c)).state;
      r.comparison == Some(c) && r.target == newTarget
  {
  }
}

=== FILE: comparison_view.dfy ===
/**
 The compliance gap panel (components/DocumentComparisonView.tsx): the per-status tally
 of a comparison's evaluations, the colour and label of each status, and the list of
 evaluation cards. The displayed counts are recomputed from the evaluations; the
 `summary` the server sends with the comparison is never read.
 */
module ComparisonView {
  import opened Outcomes
  import opened Records
  import Decimal

  /** The chip and border colours of the design system. */
  datatype ChipColor = SuccessColor | WarningColor | ErrorColor | DefaultColor

  /** The colour of a wire status; a status outside the declared three gets the default. */
  function StatusColor(status: string): (c: ChipColor)
    ensures c == DefaultColor <==> ParseStatus(status).None?
    ensures c == SuccessColor <==> ParseStatus(status) == Some(Compliant)
    ensures c == WarningColor <==> ParseStatus(status) == Some(Partial)
    ensures c == ErrorColor <==> ParseStatus(status) == Some(NonCompliant)
  {
    if status == COMPLIANT then SuccessColor
    else if status == PARTIAL then WarningColor
    else if status == NON_COMPLIANT then ErrorColor
    else DefaultColor
  }

  /** Reference definition: how many evaluations carry exactly the wire status `tag`. */
  function Count(evals: seq<Evaluation>, tag: string): nat
  {
    if |evals| == 0 then 0
    else (if evals[0].status == tag then 1 else 0) + Count(evals[1..], tag)
  }

  /** Reference definition: how many evaluations carry none of the declared statuses. */
  function CountUnknown(evals: seq<Evaluation>): nat
  {
    if |evals| == 0 then 0
    else (if IsKnownStatus(evals[0].status) then 0 else 1) + CountUnknown(evals[1..])
  }

  lemma {:induction false} CountSnoc(evals: seq<Evaluation>, e: Evaluation, tag: string)
    ensures Count(evals + [e], tag) == Count(evals, tag) + (if e.status == tag then 1 else 0)
    decreases |evals|
  {
    if |evals| > 0 {
      assert (evals + [e])[1..] == evals[1..] + [e];
      CountSnoc(evals[1..], e, tag);
    }
  }

  /** One step of the reducer: bump the counter of the evaluation's status, if any. */
  function TallyStep(acc: Summary, e: Evaluation): Summary
  {
    var acc1 := if e.status == COMPLIANT then acc.(compliant := acc.compliant + 1) else acc;
    var acc2 := if e.status == PARTIAL then acc1.(partial := acc1.partial + 1) else acc1;
    if e.status == NON_COMPLIANT then acc2.(nonCompliant := acc2.nonCompliant + 1) else acc2
  }

  /** The left fold the panel runs over the evaluations, from an all-zero summary. Each
      count is the number of evaluations with exactly that status. */
  function Tally(evals: seq<Evaluation>): (s: Summary)
    ensures s.compliant == Count(evals, COMPLIANT)
    ensures s.partial == Count(evals, PARTIAL)
    ensures s.nonCompliant == Count(evals, NON_COMPLIANT)
    decreases |evals|
  {
    if |evals| == 0 then Summary(0, 0, 0)
    else
      var init := evals[..|evals| - 1];
      var last := evals[|evals| - 1];
      assert evals == init + [last];
      CountSnoc(init, last, COMPLIANT);
      CountSnoc(init, last, PARTIAL);
      CountSnoc(init, last, NON_COMPLIANT);
      TallyStep(Tally(init), last)
  }

  /** Every evaluation is counted exactly once: under its declared status, or as unknown. */
  lemma {:induction false} CountsPartition(evals: seq<Evaluation>)
    ensures Count(evals, COMPLIANT) + Count(evals, PARTIAL) + Count(evals, NON_COMPLIANT)
      + CountUnknown(evals) == |evals|
    decreases |evals|
  {
    if |evals| > 0 {
      CountsPartition(evals[1..]);
      assert COMPLIANT != PARTIAL && PARTIAL != NON_COMPLIANT && COMPLIANT != NON_COMPLIANT by {
        assert COMPLIANT[0] != PARTIAL[0] && |PARTIAL| != |NON_COMPLIANT| && |COMPLIANT| != |NON_COMPLIANT|;
      }
    }
  }

  lemma {:induction false} CountUnknownZero(evals: seq<Evaluation>)
    ensures CountUnknown(evals) == 0 <==> AllKnown(evals)
    decreases |evals|
  {
    if |evals| > 0 {
      CountUnknownZero(evals[1..]);
      if AllKnown(evals) {
        assert forall i :: 0 <= i < |evals[1..]| ==> evals[1..][i] == evals[i + 1];
      }
      if CountUnknown(evals) == 0 {
        forall i | 0 <= i < |evals|
          ensures IsKnownStatus(evals[i].status)
        {
          if i > 0 {
            assert evals[i] == evals[1..][i - 1];
          }
        }
      }
    }
  }

  /** Conservation: the three counts sum to the number of evaluations exactly when every
      status is one of the declared three; otherwise they fall short. */
  lemma {:induction false} TallyConserves(evals: seq<Evaluation>)
    ensures Tally(evals).Total() <= |evals|
    ensures Tally(evals).Total() == |evals| <==> AllKnown(evals)
  {
    var t := Tally(evals);
    assert t.Total() == Count(evals, COMPLIANT) + Count(evals, PARTIAL) + Count(evals, NON_COMPLIANT);
    CountsPartition(evals);
    CountUnknownZero(evals);
  }

  /** A status chip: its colour and its text. */
  datatype Chip = Chip(color: ChipColor, text: string)

  /** The three summary chips, computed from the evaluations alone. */
  function SummaryChips(c: Comparison): (chips: seq<Chip>)
    ensures |chips| == 3
    ensures chips[0] == Chip(SuccessColor, "Compliant: " + Decimal.NatToString(Count(c.evaluations, COMPLIANT)))
    ensures chips[1] == Chip(WarningColor, "Partial: " + Decimal.NatToString(Count(c.evaluations, PARTIAL)))
    ensures chips[2] == Chip(ErrorColor, "Non-compliant: " + Decimal.NatToString(Count(c.evaluations, NON_COMPLIANT)))
  {
    var s := Tally(c.evaluations);
    [ Chip(SuccessColor, "Compliant: " + Decimal.NatToString(s.compliant)),
      Chip(WarningColor, "Partial: " + Decimal.NatToString(s.partial)),
      Chip(ErrorColor, "Non-compliant: " + Decimal.NatToString(s.nonCompliant)) ]
  }

  /** Whatever `summary` the server sends, the chips are the same. */
  lemma SummaryChipsIgnoreServerSummary(c: Comparison, other: Summary)
    ensures SummaryChips(c.(summary := other)) == SummaryChips(c)
  {
  }

  /** Replaces the first occurrence of `from` in `s` by `to`, as JavaScript's
      `String.prototype.replace` does when given a string pattern. */
  function ReplaceFirst(s: string, from: char, to: char): (r: string)
    ensures |r| == |s|
    decreases |s|
  {
    if |s| == 0 then s
    else if s[0] == from then [to] + s[1..]
    else [s[0]] + ReplaceFirst(s[1..], from, to)
  }

  /** With no occurrence, nothing is replaced. */
  lemma {:induction false} ReplaceFirstAbsent(s: string, from: char, to: char)
    requires from !in s
    ensures ReplaceFirst(s, from, to) == s
    decreases |s|
  {
    if |s| > 0 {
      assert s[0] != from;
      assert from !in s[1..] by {
        forall c | c in s[1..] ensures c in s { }
      }
      ReplaceFirstAbsent(s[1..], from, to);
    }
  }

  /** Only the first occurrence is replaced: everything before and after it is kept. */
  lemma {:induction false} ReplaceFirstAt(s: string, from: char, to: char, i: nat)
    requires i < |s| && s[i] == from && from !in s[..i]
    ensures ReplaceFirst(s, from, to) == s[..i] + [to] + s[i + 1..]
    decreases i
  {
    if i > 0 {
      assert s[0] in s[..i];
      assert s[1..][..i - 1] == s[1..i];
      assert from !in s[1..][..i - 1];
      ReplaceFirstAt(s[1..], from, to, i - 1);
      assert s[1..][i..] == s[i + 1..];
    }
  }

  /** The text of a status chip: the wire status with its first underscore made a space. */
  function StatusLabel(status: string): (r: string)
    ensures |r| == |status|
  {
    ReplaceFirst(status, '_', ' ')
  }

  /** The chip text of a non-compliant evaluation has a space for its underscore. */
  lemma NonCompliantLabel()
    ensures StatusLabel(NON_COMPLIANT) == "NON COMPLIANT"
  {
    assert NON_COMPLIANT[..3] == "NON";
    ReplaceFirstAt(NON_COMPLIANT, '_', ' ', 3);
  }

  /** The chip text of a compliant evaluation is the status itself. */
  lemma CompliantLabel()
    ensures StatusLabel(COMPLIANT) == "COMPLIANT"
  {
    ReplaceFirstAbsent(COMPLIANT, '_', ' ');
  }

  /** The chip text of a partial evaluation is the status itself. */
  lemma PartialLabel()
    ensures StatusLabel(PARTIAL) == "PARTIAL"
  {
    ReplaceFirstAbsent(PARTIAL, '_', ' ');
  }

  /** One evaluation card: the requirement, the status chip, the rationale, and an
      evidence block when there is evidence to show. */
  datatype Card = Card(
    requirement: string,
    color: ChipColor,
    statusText: string,
    rationale: string,
    evidence: Option<seq<string>>)

  function RenderEvaluation(e: Evaluation): (card: Card)
    ensures card.requirement == e.requirement && card.rationale == e.rationale
    ensures card.color == StatusColor(e.status) && card.statusText == StatusLabel(e.status)
    ensures card.evidence.Some? <==> |e.evidence| > 0
    ensures card.evidence.Some? ==> card.evidence.value == e.evidence
  {
    Card(e.requirement, StatusColor(e.status), StatusLabel(e.status), e.rationale,
         if |e.evidence| > 0 then Some(e.evidence) else None)
  }

  /** The cards, one per evaluation, in the order the evaluations arrived. */
  function RenderEvaluations(evals: seq<Evaluation>): (cards: seq<Card>)
    ensures |cards| == |evals|
    ensures forall i :: 0 <= i < |evals| ==> cards[i] == RenderEvaluation(evals[i])
    decreases |evals|
  {
    if |evals| == 0 then [] else [RenderEvaluation(evals[0])] + RenderEvaluations(evals[1..])
  }

  /** The whole panel: the summary chips above the evaluation cards. */
  datatype Panel = Panel(chips: seq<Chip>, cards: seq<Card>)

  function Render(c: Comparison): (p: Panel)
    ensures p.chips == SummaryChips(c)
    ensures |p.cards| == |c.evaluations|
    ensures forall i :: 0 <= i < |c.evaluations| ==> p.cards[i] == RenderEvaluation(c.evaluations[i])
  {
    Panel(SummaryChips(c), RenderEvaluations(c.evaluations))
  }

  lemma FourEvaluationCounts(e: seq<Evaluation>)
    requires |e| == 4
    requires e[0].status == COMPLIANT && e[1].status == COMPLIANT
    requires e[2].status == PARTIAL && e[3].status == NON_COMPLIANT
    ensures Count(e, COMPLIANT) == 2 && Count(e, PARTIAL) == 1 && Count(e, NON_COMPLIANT) == 1
  {
    assert |COMPLIANT| == 9 && |PARTIAL| == 7 && |NON_COMPLIANT| == 13;
    assert e[3..][1..] == [];
    assert e[2..][1..] == e[3..] && e[1..][1..] == e[2..];
    assert Count(e[3..], COMPLIANT) == 0 && Count(e[3..], PARTIAL) == 0 && Count(e[3..], NON_COMPLIANT) == 1;
    assert Count(e[2..], COMPLIANT) == 0 && Count(e[2..], PARTIAL) == 1 && Count(e[2..], NON_COMPLIANT) == 1;
    assert Count(e[1..], COMPLIANT) == 1 && Count(e[1..], PARTIAL) == 1 && Count(e[1..], NON_COMPLIANT) == 1;
  }

  lemma ChipsOfCounts(c: Comparison, compliant: nat, partial: nat, nonCompliant: nat)
    requires Count(c.evaluations, COMPLIANT) == compliant
    requires Count(c.evaluations, PARTIAL) == partial
    requires Count(c.evaluations, NON_COMPLIANT) == nonCompliant
    ensures Render(c).chips[0].text == "Compliant: " + Decimal.NatToString(compliant)
    ensures Render(c).chips[1].text == "Partial: " + Decimal.NatToString(partial)
    ensures Render(c).chips[2].text == "Non-compliant: " + Decimal.NatToString(nonCompliant)
  {
  }

  lemma SmallNumerals()
    ensures "Compliant: " + Decimal.NatToString(2) == "Compliant: 2"
    ensures "Partial: " + Decimal.NatToString(1) == "Partial: 1"
    ensures "Non-compliant: " + Decimal.NatToString(1) == "Non-compliant: 1"
  {
    assert Decimal.NatToString(1) == "1" && Decimal.NatToString(2) == "2";
  }

  /** Two compliant, one partial and one non-compliant evaluation render as the chips
      "Compliant: 2", "Partial: 1" and "Non-compliant: 1". */
  lemma FourEvaluationChips(c: Comparison)
    requires |c.evaluations| == 4
    requires c.evaluations[0].status == COMPLIANT && c.evaluations[1].status == COMPLIANT
    requires c.evaluations[2].status == PARTIAL && c.evaluations[3].status == NON_COMPLIANT
    ensures Render(c).chips[0].text == "Compliant: 2"
    ensures Render(c).chips[1].text == "Partial: 1"
    ensures Render(c).chips[2].text == "Non-compliant: 1"
  {
    FourEvaluationCounts(c.evaluations);
    ChipsOfCounts(c, 2, 1, 1);
    SmallNumerals();
  }
}

=== FILE: decimal.dfy ===
/**
 Decimal rendering of a non-negative count, as a JavaScript template literal renders a
 whole number (`${n}`): its shortest base-10 spelling, without sign or leading zeros.
 */
module Decimal {

  predicate IsDigit(c: char) {
    '0' <= c <= '9'
  }

  predicate IsDigits(s: string) {
    forall i :: 0 <= i < |s| ==> IsDigit(s[i])
  }

  function DigitChar(d: nat): (c: char)
    requires d < 10
    ensures IsDigit(c)
  {
    ('0' as int + d) as char
  }

  function DigitValue(c: char): (d: nat)
    requires IsDigit(c)
    ensures d < 10
  {
    c as int - '0' as int
  }

  /** The base-10 spelling of `n`: non-empty, digits only, no leading zero. */
  function NatToString(n: nat): (r: string)
    ensures |r| > 0 && IsDigits(r)
    ensures r[0] == '0' ==> n == 0 && r == "0"
    decreases n
  {
    if n < 10 then [DigitChar(n)] else NatToString(n / 10) + [DigitChar(n % 10)]
  }

  /** Reads a string of digits as a base-10 number (the empty string reads as 0). */
  function ParseDigits(s: string): nat
    requires IsDigits(s)
    decreases |s|
  {
    if |s| == 0 then 0 else ParseDigits(s[..|s| - 1]) * 10 + DigitValue(s[|s| - 1])
  }

  /** Rendering a count and reading it back yields the count. */
  lemma {:induction false} ParseNatToString(n: nat)
    ensures ParseDigits(NatToString(n)) == n
    decreases n
  {
    var r := NatToString(n);
    if n < 10 {
      assert r[..0] == [];
    } else {
      var p := NatToString(n / 10);
      assert r[..|r| - 1] == p;
      ParseNatToString(n / 10);
    }
  }

  /** Distinct counts render as distinct strings. */
  lemma NatToStringInjective(m: nat, n: nat)
    requires NatToString(m) == NatToString(n)
    ensures m == n
  {
    ParseNatToString(m);
    ParseNatToString(n);
  }
}

=== FILE: document_list.dfy ===
/**
 The locally held list of documents, as the home page and the analysis panel keep it:
 it is replaced wholesale by a successful list request, left alone by a failed one, and
 grows at the head by each successfully uploaded document.
 */
module DocumentList {
  import opened Outcomes
  import opened Records

  /** The `fetchFiles` effect: a successful listing replaces the local list in the order the
      server sent it; a failed one is only logged and leaves the list as it was. */
  function Reload(current: seq<Document>, listing: Outcome<seq<Document>>): (r: seq<Document>)
    ensures listing.Ok? ==> r == listing.value
    ensures listing.Err? ==> r == current
  {
    match listing
    case Ok(docs) => docs
    case Err(_) => current
  }

  /** `[doc, ...prev]`: the new document first, the old list after it. */
  function Prepend(doc: Document, list: seq<Document>): (r: seq<Document>)
    ensures |r| == |list| + 1 && r[0] == doc && r[1..] == list
  {
    [doc] + list
  }
}

=== FILE: document_page.dfy ===
/**
 The page of one document (pages/DocumentView.tsx): the effect that fetches the document
 for the id in the route, and the choice between the loading text, the not-found text and
 the document's content.
 */
module DocumentPage {
  import opened Outcomes
  import opened Records

  /** The page's state: whether the first fetch is still outstanding, and the document
      fetched, if any. */
  datatype PageState = PageState(loading: bool, document: Option<Document>)

  function Init(): (s: PageState)
    ensures s.loading && s.document.None?
  {
    PageState(true, None)
  }

  /** The `fetchDocument` effect for the route's id (absent when the route has none). A
      missing or empty id returns before anything is fetched, leaving the state untouched.
      Otherwise the fetched document replaces the shown one, a failed fetch keeps it, and
      either way loading ends. The second element is the id requested, if any. */
  function FetchDocument(s: PageState, id: Option<string>, fetched: Outcome<Document>): (r: Step<PageState, string>)
    ensures !TruthyOpt(id) ==> r == Step(s, None)
    ensures TruthyOpt(id) ==> r.request == id && !r.state.loading
    ensures TruthyOpt(id) && fetched.Ok? ==> r.state.document == Some(fetched.value)
    ensures fetched.Err? ==> r.state.document == s.document
  {
    if !TruthyOpt(id) then Step(s, None)
    else match fetched
      case Ok(doc) => Step(PageState(false, Some(doc)), id)
      case Err(_) => Step(s.(loading := false), id)
  }

  /** What the page renders. */
  datatype View = LoadingView | NotFoundView | ContentView(document: Document)

  function Render(s: PageState): (v: View)
    ensures v.LoadingView? <==> s.loading
    ensures v.NotFoundView? <==> !s.loading && s.document.None?
    ensures v.ContentView? ==> s.document == Some(v.document)
  {
    if s.loading then LoadingView
    else match s.document
      case None => NotFoundView
      case Some(doc) => ContentView(doc)
  }

  /** With no id in the route, the page never leaves the loading text. */
  lemma MissingIdStaysLoading(fetched: Outcome<Document>)
    ensures Render(FetchDocument(Init(), None, fetched).state) == LoadingView
    ensures Render(FetchDocument(Init(), Some(""), fetched).state) == LoadingView
  {
  }

  /** One run of the effect per value the route's id takes, each with its fetch outcome. */
  datatype Visit = Visit(id: Option<string>, fetched: Outcome<Document>)

  function Visits(s: PageState, visits: seq<Visit>): PageState
    decreases |visits|
  {
    if |visits| == 0 then s
    else Visits(FetchDocument(s, visits[0].id, visits[0].fetched).state, visits[1..])
  }

  /** Navigating between documents never shows the loading text again once a fetch has
      settled, and a failed fetch for the new id leaves the previous document on screen:
      a change of id resets neither `loading` nor `document`. */
  lemma {:induction false} LoadingNeverReturns(s: PageState, visits: seq<Visit>)
    requires !s.loading
    ensures !Visits(s, visits).loading
    ensures (forall i :: 0 <= i < |visits| ==> visits[i].fetched.Err?) ==> Visits(s, visits).document == s.document
    decreases |visits|
  {
    if |visits| > 0 {
      var next := FetchDocument(s, visits[0].id, visits[0].fetched).state;
      LoadingNeverReturns(next, visits[1..]);
      if forall i :: 0 <= i < |visits| ==> visits[i].fetched.Err? {
        assert visits[0].fetched.Err?;
        assert forall i :: 0 <= i < |visits[1..]| ==> visits[1..][i] == visits[i + 1];
      }
    }
  }
}

=== FILE: gateway.dfy ===
/**
 The request gateway (api.tsx): every outgoing request passes through an interceptor that
 adds `Authorization: Bearer <token>` when the credential store holds a token.
 The store is the browser's local storage entry "token", modelled as an optional string;
 the axios instance and its base URL are outside the model.
 */
module Gateway {
  import opened Outcomes

  type Headers = map<string, string>

  /** The parts of an outgoing request the interceptor can see. */
  datatype RequestConfig = RequestConfig(
    verb: string,
    url: string,
    headers: Option<Headers>,
    body: Option<string>,
    responseType: Option<string>)

  const AUTHORIZATION: string := "Authorization"
  const BEARER: string := "Bearer "

  /** The request interceptor. With a non-empty token and a header map, the Authorization
      header is set to the bearer form of the token; with no token, or no header map, the
      request goes out as it came. Nothing else is touched. */
  function Annotate(store: Option<string>, cfg: RequestConfig): (r: RequestConfig)
    ensures !TruthyOpt(store) || cfg.headers.None? ==> r == cfg
    ensures TruthyOpt(store) && cfg.headers.Some? ==>
      && r.headers.Some?
      && AUTHORIZATION in r.headers.value
      && r.headers.value[AUTHORIZATION] == BEARER + store.value
      && r.headers.value.Keys == cfg.headers.value.Keys + {AUTHORIZATION}
    ensures cfg.headers.Some? ==> forall k :: k in cfg.headers.value && k != AUTHORIZATION ==>
      k in r.headers.value && r.headers.value[k] == cfg.headers.value[k]
    ensures r.verb == cfg.verb && r.url == cfg.url && r.body == cfg.body && r.responseType == cfg.responseType
    ensures r.headers.Some? <==> cfg.headers.Some?
  {
    if TruthyOpt(store) && cfg.headers.Some? then
      cfg.(headers := Some(cfg.headers.value[AUTHORIZATION := BEARER + store.value]))
    else cfg
  }

  /** Annotating an annotated request changes nothing more. */
  lemma AnnotateIdempotent(store: Option<string>, cfg: RequestConfig)
    ensures Annotate(store, Annotate(store, cfg)) == Annotate(store, cfg)
  {
    if TruthyOpt(store) && cfg.headers.Some? {
      var h := cfg.headers.value[AUTHORIZATION := BEARER + store.value];
      assert h[AUTHORIZATION := BEARER + store.value] == h;
    }
  }
}

=== FILE: home.dfy ===
/**
 The home page (pages/Home.tsx): the list of the user's documents, the upload dialog with
 its selection of local files, the sequential batch upload that puts each new document at
 the head of the list, and the navigation to a document's page.
 */
module Home {
  import opened Outcomes
  import opened Records
  import DocumentList

  /** A local file picked for upload. */
  datatype File = File(name: string, size: int)

  /** The page's state: the documents listed, whether the upload dialog is open, the files
      picked in it, and whether a batch is being uploaded. */
  datatype HomeState = HomeState(
    files: seq<Document>,
    uploadOpen: bool,
    selected: seq<File>,
    uploading: bool)

  /** The notifications the page raises. */
  datatype Toast = UploadSucceeded | SignInFirst | UploadFailed

  const LOGIN_PATH: string := "/login"
  const DOCUMENTS_PATH: string := "/documents/"

  function Init(): (s: HomeState)
    ensures s.files == [] && !s.uploadOpen && s.selected == [] && !s.uploading
  {
    HomeState([], false, [], false)
  }

  /** The list request made when the page mounts. */
  function FilesLoaded(s: HomeState, listing: Outcome<seq<Document>>): (r: HomeState)
    ensures r.files == DocumentList.Reload(s.files, listing)
    ensures r.uploadOpen == s.uploadOpen && r.selected == s.selected && r.uploading == s.uploading
  {
    s.(files := DocumentList.Reload(s.files, listing))
  }

  /** The file input's change handler: with no file list (`null`) it returns early and keeps
      the previous selection; any list, even an empty one, replaces the selection, in the
      order picked. A file input always has a list, so the early return guards a case the
      browser does not produce. */
  function SelectFiles(s: HomeState, picked: Option<seq<File>>): (r: HomeState)
    ensures picked.None? ==> r == s
    ensures picked.Some? ==> r == s.(selected := picked.value)
  {
    match picked
    case None => s
    case Some(fs) => s.(selected := fs)
  }

  /** The batch newest first, as repeated prepending leaves it: the last element first. */
  function Reverse<T>(s: seq<T>): (r: seq<T>)
    ensures |r| == |s|
    decreases |s|
  {
    if |s| == 0 then [] else [s[|s| - 1]] + Reverse(s[..|s| - 1])
  }

  /** Position `i` of the reversal holds position `|s| - 1 - i` of the original. */
  lemma {:induction false} ReverseAt<T>(s: seq<T>, i: nat)
    requires i < |s|
    ensures Reverse(s)[i] == s[|s| - 1 - i]
    decreases |s|
  {
    if i > 0 {
      ReverseAt(s[..|s| - 1], i - 1);
    }
  }

  /** Reversal only reorders: it holds every element as often as the original does. */
  lemma {:induction false} ReversePermutes<T>(s: seq<T>)
    ensures multiset(Reverse(s)) == multiset(s)
    decreases |s|
  {
    if |s| > 0 {
      ReversePermutes(s[..|s| - 1]);
      assert s == s[..|s| - 1] + [s[|s| - 1]];
    }
  }

  lemma ReverseSnoc<T>(s: seq<T>, x: T)
    ensures Reverse(s + [x]) == [x] + Reverse(s)
  {
    assert (s + [x])[..|s|] == s;
  }

  /** The documents of the leading run of successful uploads: the upload stops at the first
      failure, so only these are ever added. */
  function Successes(outcomes: seq<Outcome<Document>>): (docs: seq<Document>)
    ensures |docs| <= |outcomes|
    ensures forall j :: 0 <= j < |docs| ==> outcomes[j].Ok? && docs[j] == outcomes[j].value
    ensures |docs| < |outcomes| ==> outcomes[|docs|].Err?
    decreases |outcomes|
  {
    if |outcomes| == 0 || outcomes[0].Err? then []
    else [outcomes[0].value] + Successes(outcomes[1..])
  }

  /** The upload loop stops at `i` (at the end, or at a failure) only where the leading run
      of successes ends. */
  lemma RunEndsAt(outcomes: seq<Outcome<Document>>, i: nat)
    requires i <= |Successes(outcomes)| && i <= |outcomes|
    requires i == |outcomes| || outcomes[i].Err?
    ensures |Successes(outcomes)| == i
  {
  }

  /** A success at `i` within the leading run extends it past `i`. */
  lemma ContinuesPastSuccess(outcomes: seq<Outcome<Document>>, i: nat)
    requires i <= |Successes(outcomes)| && i < |outcomes| && outcomes[i].Ok?
    ensures i < |Successes(outcomes)| && Successes(outcomes)[i] == outcomes[i].value
  {
  }

  /** Putting the next document of the run at the head extends the reversed prefix by one. */
  lemma PrependNext(done: seq<Document>, i: nat, base: seq<Document>)
    requires i < |done|
    ensures DocumentList.Prepend(done[i], Reverse(done[..i]) + base) == Reverse(done[..i + 1]) + base
  {
    assert done[..i + 1] == done[..i] + [done[i]];
    ReverseSnoc(done[..i], done[i]);
  }

  /** `handleConfirmUpload`, given the outcome each file's upload would have. An empty
      selection does nothing. Otherwise the files are uploaded one at a time, each new
      document put at the head of the list; the first failure stops the batch. After a full
      success the selection is cleared and the dialog closed; after a failure both are kept,
      and a 401 sends the user to the login page. `attempted` counts the upload requests
      made. */
  method ConfirmUpload(s: HomeState, outcomes: seq<Outcome<Document>>)
    returns (r: HomeState, attempted: nat, toast: Option<Toast>, navigateTo: Option<string>)
    requires |outcomes| == |s.selected|
    ensures |s.selected| == 0 ==> r == s && attempted == 0 && toast.None? && navigateTo.None?
    ensures |s.selected| > 0 ==>
      && r.files == Reverse(Successes(outcomes)) + s.files
      && !r.uploading
      && multiset(r.files) == multiset(s.files) + multiset(Successes(outcomes))
      && attempted == (if |Successes(outcomes)| == |outcomes| then |outcomes| else |Successes(outcomes)| + 1)
    ensures |s.selected| > 0 && |Successes(outcomes)| == |outcomes| ==>
      r.selected == [] && !r.uploadOpen && toast == Some(UploadSucceeded) && navigateTo.None?
    ensures |s.selected| > 0 && |Successes(outcomes)| < |outcomes| ==>
      && r.selected == s.selected && r.uploadOpen == s.uploadOpen
      && var failure := outcomes[|Successes(outcomes)|].failure;
         && (failure.IsUnauthorized() ==> toast == Some(SignInFirst) && navigateTo == Some(LOGIN_PATH))
         && (!failure.IsUnauthorized() ==> toast == Some(UploadFailed) && navigateTo.None?)
  {
    if |s.selected| == 0 {
      return s, 0, None, None;
    }
    ghost var done := Successes(outcomes);
    var files := s.files;
    var i := 0;
    while i < |outcomes| && outcomes[i].Ok?
      invariant i <= |done|
      invariant files == Reverse(done[..i]) + s.files
    {
      ContinuesPastSuccess(outcomes, i);
      PrependNext(done, i, s.files);
      files := DocumentList.Prepend(outcomes[i].value, files);
      i := i + 1;
    }
    RunEndsAt(outcomes, i);
    assert done[..i] == done;
    ReversePermutes(done);
    if i == |outcomes| {
      r, attempted, toast, navigateTo := HomeState(files, false, [], false), i, Some(UploadSucceeded), None;
    } else if outcomes[i].failure.IsUnauthorized() {
      r, attempted, toast, navigateTo := HomeState(files, s.uploadOpen, s.selected, false), i + 1, Some(SignInFirst), Some(LOGIN_PATH);
    } else {
      r, attempted, toast, navigateTo := HomeState(files, s.uploadOpen, s.selected, false), i + 1, Some(UploadFailed), None;
    }
  }

  /** A single successful upload puts the new document at the head of the list, once. */
  lemma SingleUploadPrepends(files: seq<Document>, doc: Document)
    ensures Reverse(Successes([Ok(doc)])) + files == [doc] + files
  {
    assert Successes([Ok(doc)]) == [doc];
  }

  /** `viewPage`: an empty id goes nowhere, any other id to that document's page. */
  function ViewPage(id: string): (target: Option<string>)
    ensures target.None? <==> id == ""
    ensures target.Some? ==> target.value == DOCUMENTS_PATH + id
  {
    if id == "" then None else Some(DOCUMENTS_PATH + id)
  }
}

=== FILE: insight_view.dfy ===
/**
 The analysis panel of a document (pages/DocumentInsightView.tsx): the summary with its
 "Read more" truncation, the key points shown five to a page with a pager, and the
 document list it loads to offer comparison targets.
 */
module InsightView {
  import opened Outcomes
  import opened Records
  import DocumentList

  const KEY_POINTS_PER_PAGE: nat := 5
  const MAX_CHARS: nat := 200

  /** The suffix appended to a truncated summary. The source spells it as a mis-decoded
      ellipsis; only its being a fixed string matters here. */
  const ELLIPSIS: string := "\U{00E2}\U{20AC}\U{00A6}"

  const NO_SUMMARY: string := "No summary available."
  const READ_MORE: string := "Read more"
  const READ_LESS: string := "Read less"

  function Min(a: nat, b: nat): nat {
    if a <= b then a else b
  }

  /** The key points of a document; none while its analysis is absent. */
  function KeyPoints(doc: Document): (kp: seq<string>)
    ensures doc.analysis.None? ==> kp == []
    ensures doc.analysis.Some? ==> kp == doc.analysis.value.keyPoints
  {
    match doc.analysis
    case Some(a) => a.keyPoints
    case None => []
  }

  /** `Math.ceil(n / 5)`: the fewest pages of five that hold `n` key points. */
  function TotalPages(n: nat): (pages: nat)
    ensures pages * KEY_POINTS_PER_PAGE >= n
    ensures pages > 0 ==> (pages - 1) * KEY_POINTS_PER_PAGE < n
    ensures pages == 0 <==> n == 0
  {
    (n + KEY_POINTS_PER_PAGE - 1) / KEY_POINTS_PER_PAGE
  }

  /** `Array.prototype.slice(start, end)` for non-negative bounds: both bounds are clamped to
      the length, and a start at or past the end gives the empty sequence. */
  function Slice<T>(s: seq<T>, start: nat, end: nat): (r: seq<T>)
    ensures Min(start, |s|) < Min(end, |s|) ==> r == s[Min(start, |s|)..Min(end, |s|)]
    ensures Min(end, |s|) <= Min(start, |s|) ==> r == []
  {
    var from := Min(start, |s|);
    var to := Min(end, |s|);
    if from < to then s[from..to] else []
  }

  /** The key points shown on the 0-based page `page`: at most five, the run that starts at
      position 5 * page; nothing on a page at or past the last one. */
  function PageOf(kp: seq<string>, page: nat): (r: seq<string>)
    ensures |r| <= KEY_POINTS_PER_PAGE
    ensures page < TotalPages(|kp|) ==>
      |r| > 0 && r == kp[page * KEY_POINTS_PER_PAGE..Min(page * KEY_POINTS_PER_PAGE + KEY_POINTS_PER_PAGE, |kp|)]
    ensures page >= TotalPages(|kp|) ==> r == []
  {
    Slice(kp, page * KEY_POINTS_PER_PAGE, page * KEY_POINTS_PER_PAGE + KEY_POINTS_PER_PAGE)
  }

  /** Pages 0 .. count-1, laid end to end in page order. */
  function Concat(kp: seq<string>, count: nat): seq<string>
    decreases count
  {
    if count == 0 then [] else Concat(kp, count - 1) + PageOf(kp, count - 1)
  }

  lemma {:induction false} ConcatIsPrefix(kp: seq<string>, count: nat)
    ensures Concat(kp, count) == kp[..Min(count * KEY_POINTS_PER_PAGE, |kp|)]
    decreases count
  {
    if count > 0 {
      ConcatIsPrefix(kp, count - 1);
      var lo := Min((count - 1) * KEY_POINTS_PER_PAGE, |kp|);
      var hi := Min(count * KEY_POINTS_PER_PAGE, |kp|);
      if lo < hi {
        assert PageOf(kp, count - 1) == kp[lo..hi];
        assert kp[..lo] + kp[lo..hi] == kp[..hi];
      } else {
        assert PageOf(kp, count - 1) == [];
        assert lo == hi;
      }
    }
  }

  /** The pages partition the key points: read in order, they give back every key point
      exactly once. */
  lemma {:induction false} PagesPartitionKeyPoints(kp: seq<string>)
    ensures Concat(kp, TotalPages(|kp|)) == kp
  {
    ConcatIsPrefix(kp, TotalPages(|kp|));
    assert kp[..|kp|] == kp;
  }

  /** The caption of the `index`-th item on page `page`. */
  function InsightNumber(page: nat, index: nat): nat {
    page * KEY_POINTS_PER_PAGE + index + 1
  }

  /** An item's caption is its 1-based position among all the key points. */
  lemma InsightNumberIsPosition(kp: seq<string>, page: nat, index: nat)
    requires index < |PageOf(kp, page)|
    ensures 1 <= InsightNumber(page, index) <= |kp|
    ensures kp[InsightNumber(page, index) - 1] == PageOf(kp, page)[index]
  {
  }

  /** What the key-insights card shows: the placeholder, or the numbered items of the page
      with a pager of `pageCount` pages at 1-based page `current`. */
  datatype KeyPointsPanel =
    | NoKeyPoints
    | Insights(items: seq<Insight>, pageCount: nat, current: nat)

  datatype Insight = Insight(number: nat, text: string)

  function Number(items: seq<string>, page: nat): (r: seq<Insight>)
    ensures |r| == |items|
    ensures forall i :: 0 <= i < |items| ==> r[i] == Insight(InsightNumber(page, i), items[i])
  {
    seq(|items|, i requires 0 <= i < |items| => Insight(InsightNumber(page, i), items[i]))
  }

  function KeyPointsView(doc: Document, page: nat): (v: KeyPointsPanel)
    ensures v.NoKeyPoints? <==> page >= TotalPages(|KeyPoints(doc)|)
    ensures v.Insights? ==>
      && 0 < |v.items| <= KEY_POINTS_PER_PAGE
      && |v.items| == |PageOf(KeyPoints(doc), page)|
      && v.pageCount == TotalPages(|KeyPoints(doc)|)
      && v.current == page + 1
      && forall i :: 0 <= i < |v.items| ==>
           && v.items[i].number == InsightNumber(page, i)
           && 1 <= v.items[i].number <= |KeyPoints(doc)|
           && v.items[i].text == KeyPoints(doc)[v.items[i].number - 1]
  {
    var kp := KeyPoints(doc);
    var shown := PageOf(kp, page);
    if |shown| > 0 then
      assert forall i :: 0 <= i < |shown| ==>
          1 <= InsightNumber(page, i) <= |kp| && kp[InsightNumber(page, i) - 1] == shown[i] by {
        forall i | 0 <= i < |shown|
          ensures 1 <= InsightNumber(page, i) <= |kp| && kp[InsightNumber(page, i) - 1] == shown[i]
        {
          InsightNumberIsPosition(kp, page, i);
        }
      }
      Insights(Number(shown, page), TotalPages(|kp|), page + 1)
    else NoKeyPoints
  }

  /** Every key point is shown somewhere: the key point at position `j` is item `j % 5` of
      page `j / 5`, captioned "Insight j+1". */
  lemma EveryKeyPointShown(doc: Document, j: nat)
    requires j < |KeyPoints(doc)|
    ensures var v := KeyPointsView(doc, j / KEY_POINTS_PER_PAGE);
      && v.Insights?
      && j % KEY_POINTS_PER_PAGE < |v.items|
      && v.items[j % KEY_POINTS_PER_PAGE] == Insight(j + 1, KeyPoints(doc)[j])
  {
    var kp := KeyPoints(doc);
    var page := j / KEY_POINTS_PER_PAGE;
    var index := j % KEY_POINTS_PER_PAGE;
    assert j == page * KEY_POINTS_PER_PAGE + index;
    assert index < |PageOf(kp, page)|;
    InsightNumberIsPosition(kp, page, index);
  }

  /** The summary of a document; empty while its analysis is absent. */
  function SummaryOf(doc: Document): (s: string)
    ensures doc.analysis.None? ==> s == ""
    ensures doc.analysis.Some? ==> s == doc.analysis.value.summary
  {
    match doc.analysis
    case Some(a) => a.summary
    case None => ""
  }

  predicate IsLong(summary: string) {
    |summary| > MAX_CHARS
  }

  /** The summary text shown: collapsed, a long summary is cut to its first 200 characters
      followed by the ellipsis; otherwise it is shown whole, with a placeholder for none. */
  function DisplayText(summary: string, expanded: bool): (r: string)
    ensures !expanded && IsLong(summary) ==>
      |r| == MAX_CHARS + |ELLIPSIS| && r[..MAX_CHARS] == summary[..MAX_CHARS] && r[MAX_CHARS..] == ELLIPSIS
    ensures (expanded || !IsLong(summary)) && summary != "" ==> r == summary
    ensures summary == "" ==> r == NO_SUMMARY
  {
    if !expanded && IsLong(summary) then summary[..MAX_CHARS] + ELLIPSIS
    else if summary != "" then summary
    else NO_SUMMARY
  }

  /** The summary paragraph of a document's panel: the placeholder without an analysis;
      otherwise the analysis's summary, cut to 200 characters and the ellipsis while it is
      long and collapsed. */
  function SummaryShown(doc: Document, expanded: bool): (r: string)
    ensures doc.analysis.None? ==> r == NO_SUMMARY
    ensures doc.analysis.Some? ==>
      var summary := doc.analysis.value.summary;
      && (summary == "" ==> r == NO_SUMMARY)
      && ((expanded || !IsLong(summary)) && summary != "" ==> r == summary)
      && (!expanded && IsLong(summary) ==>
            |r| == MAX_CHARS + |ELLIPSIS| && r[..MAX_CHARS] == summary[..MAX_CHARS]
            && r[MAX_CHARS..] == ELLIPSIS)
  {
    DisplayText(SummaryOf(doc), expanded)
  }

  /** The "Read more" / "Read less" control: present exactly for a long summary. */
  function ReadMoreControl(summary: string, expanded: bool): (r: Option<string>)
    ensures r.Some? <==> IsLong(summary)
    ensures r.Some? ==> (r.value == READ_LESS <==> expanded)
  {
    if IsLong(summary) then Some(if expanded then READ_LESS else READ_MORE) else None
  }

  /** The panel's own state: the 0-based key-point page, whether the summary is expanded,
      and the document list used for comparison targets. */
  datatype InsightState = InsightState(page: nat, expanded: bool, files: seq<Document>)

  function Init(): (s: InsightState)
    ensures s.page == 0 && !s.expanded && s.files == []
  {
    InsightState(0, false, [])
  }

  /** The pager reports 1-based page numbers; the panel stores them 0-based. */
  function SelectPage(s: InsightState, value: int): (r: InsightState)
    requires value >= 1
    ensures r.page + 1 == value
    ensures r.expanded == s.expanded && r.files == s.files
  {
    s.(page := value - 1)
  }

  /** Choosing a page the pager offers shows that page's key points. */
  lemma SelectOfferedPage(doc: Document, s: InsightState, value: int)
    requires 1 <= value <= TotalPages(|KeyPoints(doc)|)
    ensures KeyPointsView(doc, SelectPage(s, value).page).Insights?
    ensures KeyPointsView(doc, SelectPage(s, value).page).current == value
  {
  }

  /** The Read more / Read less button flips the expanded flag. */
  function ToggleExpanded(s: InsightState): (r: InsightState)
    ensures r.expanded != s.expanded
    ensures r.page == s.page && r.files == s.files
  {
    s.(expanded := !s.expanded)
  }

  lemma ToggleTwiceRestores(s: InsightState)
    ensures ToggleExpanded(ToggleExpanded(s)) == s
  {
  }

  /** The list request made when the panel mounts. */
  function FilesLoaded(s: InsightState, listing: Outcome<seq<Document>>): (r: InsightState)
    ensures r.files == DocumentList.Reload(s.files, listing)
    ensures r.page == s.page && r.expanded == s.expanded
  {
    s.(files := DocumentList.Reload(s.files, listing))
  }
}

=== FILE: login_page.dfy ===
/**
 The login form (pages/Login.tsx): local validation of the two fields, then the login call,
 then navigation to the home page.
 */
module LoginPage {
  import opened Outcomes
  import Auth

  /** The form's state: the two fields, the error banner text ("" for none), and whether a
      login is pending. */
  datatype LoginForm = LoginForm(email: string, password: string, error: string, loading: bool)

  datatype Toast = MissingCredentials | LoggedIn

  const HOME_PATH: string := "/"

  function Init(): (f: LoginForm)
    ensures f.email == "" && f.password == "" && f.error == "" && !f.loading
  {
    LoginForm("", "", "", false)
  }

  /** What one submit leaves behind: the form, the credential store, the login request made
      (if any), where the user is sent (if anywhere), and the toast raised (if any). */
  datatype Submitted = Submitted(
    form: LoginForm,
    store: Option<string>,
    request: Option<Auth.LoginPayload>,
    navigateTo: Option<string>,
    toast: Option<Toast>)

  /** `handleSubmit` up to the login call: the error is cleared; an empty field stops there
      with a toast; otherwise the form is marked loading and the credentials are sent. */
  function BeginSubmit(f: LoginForm): (r: Step<LoginForm, Auth.LoginPayload>)
    ensures r.state.error == "" && r.state.email == f.email && r.state.password == f.password
    ensures r.request.None? <==> f.email == "" || f.password == ""
    ensures r.request.None? ==> r.state.loading == f.loading
    ensures r.request.Some? ==> r.state.loading && r.request.value == Auth.LoginPayload(f.email, f.password)
  {
    var cleared := f.(error := "");
    if f.email == "" || f.password == "" then Step(cleared, None)
    else Step(cleared.(loading := true), Some(Auth.LoginPayload(f.email, f.password)))
  }

  /** The whole of `handleSubmit`, given the outcome of the login call. A resolved login
      ends loading and goes home. A rejected login has no handler: the rest of the submit is
      skipped, so the form stays loading and nobody navigates. */
  function Submit(f: LoginForm, store: Option<string>, response: Outcome<Auth.LoginResponse>): (r: Submitted)
    ensures r.form.error == "" && r.form.email == f.email && r.form.password == f.password
    ensures f.email == "" || f.password == "" ==>
      r == Submitted(f.(error := ""), store, None, None, Some(MissingCredentials))
    ensures f.email != "" && f.password != "" ==> r.request == Some(Auth.LoginPayload(f.email, f.password))
    ensures f.email != "" && f.password != "" && response.Ok? ==>
      && !r.form.loading && r.navigateTo == Some(HOME_PATH) && r.toast == Some(LoggedIn)
      && r.store == Auth.StoreToken(store, response.value)
    ensures f.email != "" && f.password != "" && response.Err? ==>
      r.form.loading && r.navigateTo.None? && r.toast.None? && r.store == store
  {
    var begun := BeginSubmit(f);
    if begun.request.None? then Submitted(begun.state, store, None, None, Some(MissingCredentials))
    else
      var (store', result) := Auth.Login(store, response);
      match result
      case Ok(_) => Submitted(begun.state.(loading := false), store', begun.request, Some(HOME_PATH), Some(LoggedIn))
      case Err(_) => Submitted(begun.state, store', begun.request, None, None)
  }

  /** The submit button is in its loading state, and so inert, while `loading` holds. */
  predicate SubmitEnabled(f: LoginForm)
  {
    !f.loading
  }

  /** A rejected login leaves the form loading, so the button stays inert and the form
      cannot be submitted again; a resolved one re-enables it. */
  lemma RejectedLoginDisablesForm(f: LoginForm, store: Option<string>, failure: Failure)
    requires f.email != "" && f.password != ""
    ensures Submit(f, store, Err(failure)).form == f.(error := "", loading := true)
    ensures !SubmitEnabled(Submit(f, store, Err(failure)).form)
  {
  }

  /** A resolved login leaves the button usable again whatever state it was in. */
  lemma ResolvedLoginEnablesForm(f: LoginForm, store: Option<string>, data: Auth.LoginResponse)
    requires f.email != "" && f.password != ""
    ensures SubmitEnabled(Submit(f, store, Ok(data)).form)
  {
  }
}

=== FILE: outcomes.dfy ===
/**
 Shared wrappers for every component model: `Option` for an absent value, `Failure` and
 `Outcome` for how a network call settles, and `Step` for a handler's new state together
 with the request it issued. Network calls are parameters of type `Outcome`, so each
 handler is a pure transition.
 */
module Outcomes {

  datatype Option<+T> = None | Some(value: T)

  /** Why a request was rejected: no response reached the client, or the server answered
      with a non-2xx HTTP status. */
  datatype Failure = NoResponse | HttpStatus(code: int) {

    /** The client's `err.response?.status === 401` test. */
    predicate IsUnauthorized() {
      HttpStatus? && code == 401
    }
  }

  /** The settled outcome of one network call. */
  datatype Outcome<+T> = Ok(value: T) | Err(failure: Failure)

  /** What one event handler does: the state it leaves behind and the request it issued,
      if it issued one. */
  datatype Step<+S, +Q> = Step(state: S, request: Option<Q>)

  /** JavaScript truthiness of a string: only the empty string is falsy. */
  predicate Truthy(s: string) {
    |s| > 0
  }

  /** JavaScript truthiness of an optional string: `null`/`undefined` and "" are falsy. */
  predicate TruthyOpt(s: Option<string>) {
    s.Some? && Truthy(s.value)
  }
}

=== FILE: records.dfy ===
/**
 The records the server sends and the client keeps: a document with its optional AI
 analysis (services/documents.ts) and a compliance comparison between two documents
 with its per-requirement evaluations (services/comparison.ts).
 Timestamps are kept as the strings they arrive as; sizes and scores as numbers.
 */
module Records {
  import opened Outcomes

  /** The AI-derived analysis of a document. */
  datatype Analysis = Analysis(summary: string, keyPoints: seq<string>, analyzedAt: string)

  /** An uploaded document; `analysis` is absent until the AI service has produced it. */
  datatype Document = Document(
    id: string,
    ownerId: string,
    title: string,
    filename: string,
    size: int,
    rawText: string,
    analysis: Option<Analysis>,
    createdAt: string)

  /** The three statuses the comparison service declares for an evaluation. */
  datatype Status = Compliant | Partial | NonCompliant

  const COMPLIANT: string := "COMPLIANT"
  const PARTIAL: string := "PARTIAL"
  const NON_COMPLIANT: string := "NON_COMPLIANT"

  /** The wire spelling of a status. */
  function StatusTag(st: Status): string {
    match st
    case Compliant => COMPLIANT
    case Partial => PARTIAL
    case NonCompliant => NON_COMPLIANT
  }

  /** Reads a wire status back; any other string is not one of the declared three. */
  function ParseStatus(s: string): (r: Option<Status>)
    ensures r.Some? ==> StatusTag(r.value) == s
    ensures r.None? <==> s != COMPLIANT && s != PARTIAL && s != NON_COMPLIANT
  {
    if s == COMPLIANT then Some(Compliant)
    else if s == PARTIAL then Some(Partial)
    else if s == NON_COMPLIANT then Some(NonCompliant)
    else None
  }

  /** Every declared status survives the trip to the wire and back. */
  lemma ParseStatusTag(st: Status)
    ensures ParseStatus(StatusTag(st)) == Some(st)
  {
  }

  /** True when a wire status is one of the three declared values. */
  predicate IsKnownStatus(s: string) {
    ParseStatus(s).Some?
  }

  /** One requirement's assessed status. `status` is kept as it arrives on the wire, since
      nothing on the client checks it against the declared union. */
  datatype Evaluation = Evaluation(
    requirement: string,
    status: string,
    rationale: string,
    evidence: seq<string>)

  /** The per-status counts of a comparison. */
  datatype Summary = Summary(compliant: nat, partial: nat, nonCompliant: nat) {
    function Total(): nat {
      compliant + partial + nonCompliant
    }
  }

  /** The result of comparing a source document against a target document. */
  datatype Comparison = Comparison(
    id: string,
    sourceDocumentId: string,
    targetDocumentId: string,
    complianceScore: real,
    summary: Summary,
    evaluations: seq<Evaluation>,
    createdAt: string)

  /** True when every evaluation carries one of the declared statuses. */
  predicate AllKnown(evals: seq<Evaluation>) {
    forall i :: 0 <= i < |evals| ==> IsKnownStatus(evals[i].status)
  }
}

=== FILE: viewer.dfy ===
/**
 The PDF pane of a document (components/DocumentViewer.tsx): the page navigator over
 `(pageNumber, numPages)`, and the object URL each run of the download effect creates for
 the downloaded bytes and revokes in its cleanup.
 Decoding and drawing the PDF are outside the model; an object URL is an abstract handle,
 fresh whenever one is created.
 */
module Viewer {
  import opened Outcomes

  /** A handle returned by `URL.createObjectURL`. */
  datatype Url = Url(handle: nat)

  /** The pane's state: the page count reported by the PDF loader (0 until it reports), the
      1-based page shown, and the object URL of the payload once one is set. */
  datatype ViewerState = ViewerState(numPages: nat, page: int, pdfUrl: Option<Url>)

  function Init(): (s: ViewerState)
    ensures s.numPages == 0 && s.page == 1 && s.pdfUrl.None?
  {
    ViewerState(0, 1, None)
  }

  function Max(a: int, b: int): int {
    if a >= b then a else b
  }

  /** The navigator's invariant: the page is between 1 and the page count, or 1 while the
      count is still 0. */
  predicate PageInRange(s: ViewerState) {
    1 <= s.page <= Max(1, s.numPages)
  }

  /** The PDF loader reports its page count: the count is recorded and page 1 shown. */
  function LoadSuccess(s: ViewerState, n: nat): (r: ViewerState)
    ensures r.numPages == n && r.page == 1 && r.pdfUrl == s.pdfUrl
    ensures PageInRange(r)
  {
    s.(numPages := n, page := 1)
  }

  /** Previous is disabled at page 1 and below. */
  predicate PreviousEnabled(s: ViewerState) {
    !(s.page <= 1)
  }

  /** Next is disabled at the last page and beyond. */
  predicate NextEnabled(s: ViewerState) {
    !(s.page >= s.numPages)
  }

  /** A click on Previous: one page back when enabled, nothing when disabled. */
  function Previous(s: ViewerState): (r: ViewerState)
    ensures PreviousEnabled(s) ==> r.page == s.page - 1
    ensures !PreviousEnabled(s) ==> r == s
    ensures r.numPages == s.numPages && r.pdfUrl == s.pdfUrl
    ensures PageInRange(s) ==> PageInRange(r)
  {
    if PreviousEnabled(s) then s.(page := s.page - 1) else s
  }

  /** A click on Next: one page on when enabled, nothing when disabled. */
  function Next(s: ViewerState): (r: ViewerState)
    ensures NextEnabled(s) ==> r.page == s.page + 1
    ensures !NextEnabled(s) ==> r == s
    ensures r.numPages == s.numPages && r.pdfUrl == s.pdfUrl
    ensures PageInRange(s) ==> PageInRange(r)
  {
    if NextEnabled(s) then s.(page := s.page + 1) else s
  }

  /** Previous at page 1 and Next at the last page leave the page where it is. */
  lemma NoWrapAround(s: ViewerState)
    requires PageInRange(s)
    ensures s.page == 1 ==> Previous(s) == s
    ensures s.page == s.numPages ==> Next(s) == s
  {
  }

  /** What the pane renders: the loading text until a URL is set, then the document. */
  datatype Pane = LoadingPdf | PdfPage(url: Url, page: int, numPages: nat)

  function Render(s: ViewerState): (p: Pane)
    ensures p.LoadingPdf? <==> s.pdfUrl.None?
    ensures p.PdfPage? ==> p.url == s.pdfUrl.value && p.page == s.page && p.numPages == s.numPages
  {
    match s.pdfUrl
    case None => LoadingPdf
    case Some(u) => PdfPage(u, s.page, s.numPages)
  }

  /** The things the pane can do: a navigation click, a page count from the loader. */
  datatype NavEvent = ClickPrevious | ClickNext | Loaded(n: nat)

  function Navigate(s: ViewerState, events: seq<NavEvent>): ViewerState
    decreases |events|
  {
    if |events| == 0 then s
    else
      var next := match events[0]
        case ClickPrevious => Previous(s)
        case ClickNext => Next(s)
        case Loaded(n) => LoadSuccess(s, n);
      Navigate(next, events[1..])
  }

  /** From the initial page, no run of clicks and loads moves the page out of range. */
  lemma {:induction false} NavigateKeepsPageInRange(s: ViewerState, events: seq<NavEvent>)
    requires PageInRange(s)
    ensures PageInRange(Navigate(s, events))
    decreases |events|
  {
    if |events| > 0 {
      var next := match events[0]
        case ClickPrevious => Previous(s)
        case ClickNext => Next(s)
        case Loaded(n) => LoadSuccess(s, n);
      NavigateKeepsPageInRange(next, events[1..]);
    }
  }

  /** One run of the download effect, from the effect body to its cleanup: the URL it
      created (if any), whether the download has settled, whether cleanup has run, and the
      URLs the cleanup revoked. */
  datatype EffectRun = EffectRun(created: Option<Url>, settled: bool, cleanedUp: bool, revoked: seq<Url>)

  /** What can happen to a run: the download settles (with fresh URL `Ok(u)` for the
      payload, or a failure), or React runs the cleanup (document id changed, or unmount). */
  datatype RunEvent = Settle(download: Outcome<Url>) | Cleanup

  function StartRun(): (run: EffectRun)
    ensures run.created.None? && !run.settled && !run.cleanedUp && run.revoked == []
  {
    EffectRun(None, false, false, [])
  }

  function AsSeq(u: Option<Url>): seq<Url> {
    if u.Some? then [u.value] else []
  }

  /** The cleanup as written: it revokes the run's URL if one was created before it ran. */
  function CleanupRun(run: EffectRun): (r: EffectRun)
    requires !run.cleanedUp
    ensures r.cleanedUp && r.created == run.created && r.settled == run.settled
    ensures run.created.None? ==> r.revoked == []
    ensures run.created.Some? ==> r.revoked == [run.created.value]
  {
    run.(cleanedUp := true, revoked := AsSeq(run.created))
  }

  /** The effect as written. A successful download always creates a URL and shows it, even
      when the cleanup has already run; the cleanup revokes only what exists when it runs.
      The second element is the URL the pane is told to show, if any. A promise settles at
      most once and React cleans up once, so a repeated event changes nothing. */
  function RunStepAsWritten(run: EffectRun, e: RunEvent): (r: (EffectRun, Option<Url>))
    ensures e.Cleanup? && !run.cleanedUp ==> r.0 == CleanupRun(run) && r.1.None?
    ensures e.Settle? && !run.settled && e.download.Ok? ==>
      r.0 == run.(created := Some(e.download.value), settled := true) && r.1 == Some(e.download.value)
    ensures e.Settle? && !run.settled && e.download.Err? ==> r == (run.(settled := true), None)
    ensures run.settled ==> r.0.created == run.created
  {
    match e
    case Cleanup => if run.cleanedUp then (run, None) else (CleanupRun(run), None)
    case Settle(download) =>
      if run.settled then (run, None)
      else match download
        case Ok(u) => (run.(created := Some(u), settled := true), Some(u))
        case Err(_) => (run.(settled := true), None)
  }

  /** The effect with its cleanup honoured: a download that settles after the cleanup has
      run creates no URL and shows nothing. */
  function RunStep(run: EffectRun, e: RunEvent): (r: (EffectRun, Option<Url>))
    ensures e.Cleanup? && !run.cleanedUp ==> r.0 == CleanupRun(run) && r.1.None?
    ensures e.Settle? && !run.settled && !run.cleanedUp && e.download.Ok? ==>
      r.0 == run.(created := Some(e.download.value), settled := true) && r.1 == Some(e.download.value)
    ensures e.Settle? && !run.settled && e.download.Err? ==> r == (run.(settled := true), None)
    ensures run.cleanedUp ==> r.1.None? && r.0.created == run.created && r.0.revoked == run.revoked
  {
    match e
    case Cleanup => if run.cleanedUp then (run, None) else (CleanupRun(run), None)
    case Settle(download) =>
      if run.settled then (run, None)
      else if run.cleanedUp then (run.(settled := true), None)
      else match download
        case Ok(u) => (run.(created := Some(u), settled := true), Some(u))
        case Err(_) => (run.(settled := true), None)
  }

  function RunAllAsWritten(run: EffectRun, events: seq<RunEvent>): EffectRun
    decreases |events|
  {
    if |events| == 0 then run else RunAllAsWritten(RunStepAsWritten(run, events[0]).0, events[1..])
  }

  function RunAll(run: EffectRun, events: seq<RunEvent>): EffectRun
    decreases |events|
  {
    if |events| == 0 then run else RunAll(RunStep(run, events[0]).0, events[1..])
  }

  /** The resource rule: once the run is cleaned up, exactly the URL it created (if any) has
      been revoked, once; before that, nothing has been revoked. */
  predicate Released(run: EffectRun) {
    && (run.cleanedUp ==> run.revoked == AsSeq(run.created))
    && (!run.cleanedUp ==> run.revoked == [])
  }

  /** As written, a run's cleanup revokes at most one URL: the run's own, when it was created
      before the cleanup ran, and nothing else. (A run holds at most one URL because
      `created` is an `Option`.) */
  lemma {:induction false} AsWrittenRevokesOnlyItsOwnUrl(run: EffectRun, events: seq<RunEvent>)
    requires !run.cleanedUp && run.revoked == []
    requires run.created.Some? ==> run.settled
    ensures var r := RunAllAsWritten(run, events);
      |r.revoked| <= 1
      && (r.cleanedUp ==> forall u :: u in r.revoked ==> r.created == Some(u))
    decreases |events|
  {
    if |events| > 0 {
      var next := RunStepAsWritten(run, events[0]).0;
      if !next.cleanedUp {
        AsWrittenRevokesOnlyItsOwnUrl(next, events[1..]);
      } else {
        AsWrittenAfterCleanup(next, events[1..]);
      }
    }
  }

  lemma {:induction false} AsWrittenAfterCleanup(run: EffectRun, events: seq<RunEvent>)
    requires run.cleanedUp && |run.revoked| <= 1
    requires forall u :: u in run.revoked ==> run.created == Some(u)
    requires run.created.Some? ==> run.settled
    ensures var r := RunAllAsWritten(run, events);
      r.cleanedUp && r.revoked == run.revoked
      && (r.created.Some? ==> r.settled)
      && forall u :: u in r.revoked ==> r.created == Some(u)
    decreases |events|
  {
    if |events| > 0 {
      AsWrittenAfterCleanup(RunStepAsWritten(run, events[0]).0, events[1..]);
    }
  }

  /** As written, a download that settles after the cleanup (the document changed or the
      pane unmounted while it was in flight) creates a URL that is never revoked, and shows
      it in the pane. */
  lemma AsWrittenLeaksLateUrl(u: Url)
    ensures var afterCleanup := RunStepAsWritten(StartRun(), Cleanup).0;
      var (r, shown) := RunStepAsWritten(afterCleanup, Settle(Ok(u)));
      r.created == Some(u) && u !in r.revoked && r.cleanedUp && shown == Some(u)
    ensures !Released(RunAllAsWritten(StartRun(), [Cleanup, Settle(Ok(u))]))
  {
    var events := [Cleanup, Settle(Ok(u))];
    var afterCleanup := RunStepAsWritten(StartRun(), Cleanup).0;
    var afterSettle := RunStepAsWritten(afterCleanup, Settle(Ok(u))).0;
    assert events[1..] == [Settle(Ok(u))] && events[1..][1..] == [];
    assert RunAllAsWritten(afterSettle, []) == afterSettle;
    assert RunAllAsWritten(afterCleanup, [Settle(Ok(u))]) == afterSettle;
    assert RunAllAsWritten(StartRun(), events) == afterSettle;
  }

  /** With the cleanup honoured, every run keeps the resource rule whatever the order of
      events: nothing is revoked twice, nothing foreign is revoked, and a cleaned-up run has
      revoked every URL it created. */
  lemma {:induction false} RunAllReleases(run: EffectRun, events: seq<RunEvent>)
    requires Released(run)
    ensures Released(RunAll(run, events))
    decreases |events|
  {
    if |events| > 0 {
      RunAllReleases(RunStep(run, events[0]).0, events[1..]);
    }
  }

  /** The download settling, as written: a successful first settlement creates a URL and
      shows it in the pane, whether or not the run was cleaned up meanwhile. A run cleaned
      up before that point is left holding a URL nobody revokes. */
  function Download(s: ViewerState, run: EffectRun, download: Outcome<Url>): (r: (ViewerState, EffectRun))
    ensures !run.settled && download.Ok? ==>
      r.0.pdfUrl == Some(download.value) && r.1.created == Some(download.value) && r.1.settled
    ensures run.settled || download.Err? ==> r.0 == s
    ensures !run.settled && download.Err? ==> r.1 == run.(settled := true)
    ensures run.cleanedUp && run.revoked == [] && !run.settled && download.Ok? ==> !Released(r.1)
    ensures r.0.page == s.page && r.0.numPages == s.numPages
    ensures r.1.cleanedUp == run.cleanedUp && r.1.revoked == run.revoked
  {
    var (next, shown) := RunStepAsWritten(run, Settle(download));
    (if shown.Some? then s.(pdfUrl := shown) else s, next)
  }

  /** The download settling with the cleanup honoured: a cleaned-up run leaves the pane
      alone, and a run that kept the resource rule still keeps it. */
  function DownloadHonouringCleanup(s: ViewerState, run: EffectRun, download: Outcome<Url>): (r: (ViewerState, EffectRun))
    ensures run.cleanedUp || download.Err? ==> r.0 == s
    ensures !run.settled && download.Err? ==> r.1 == run.(settled := true)
    ensures !run.cleanedUp && !run.settled && download.Ok? ==> r.0.pdfUrl == Some(download.value)
    ensures Released(run) ==> Released(r.1)
    ensures r.0.page == s.page && r.0.numPages == s.numPages
  {
    var (next, shown) := RunStep(run, Settle(download));
    (if shown.Some? then s.(pdfUrl := shown) else s, next)
  }
}
